=== FILE: README.md ===
# Navmesh island indexer — Dafny model

A model of the island indexer that labels the polygons of a tiled navigation
mesh. Two polygons carry the same island label when a flood from one of them
reached the other over polygon links. The indexer has three parts:

- **Flag store** (`FlagStore`). The `NavmeshFlags` class keeps one 16-bit
  label word per polygon slot (128 slots per tile) and the last render pass
  that stamped each tile. It also owns the cursor from which fresh labels are
  minted.
- **Flood** (`Flood`). `FloodNavmesh` is a depth-first traversal from one start
  polygon. It claims every reachable polygon it may enter, unless its open
  stack (1024 entries) fills. A full stack can only cut the flood short once
  more than 1024 polygons are claimed. The flood adopts the label of the
  first stable polygon of a clean tile it meets whose label byte is non-zero,
  or mints a fresh label when it meets none. It then stamps the label, with
  the FLOODED marker, on every polygon it claimed.
- **Driver** (`Driver`). `OnRegenerateTiles` works in four steps:
  1. It stamps the changed tiles with the current render pass. It skips this
     on the initial update.
  2. It floods from every not-yet-flooded polygon of the working tiles. These
     are all tiles on the initial update, and the changed tiles otherwise.
  3. It commits each polygon's plain label to the store and to the navigation
     provider's polygon flags.
  4. It advances the render pass.

Word layout and capacities live in `IslandConsts`, and the label cursor in
`LabelCursor`. The mesh itself (`NavMesh`) is reduced to what the indexer
reads:
- tiles, with or without a header;
- per-polygon link lists;
- a decoded polygon reference, `PolyRef(tile, poly)`.

A 16-bit word is `bv16`, and so is its label in the low byte. A render pass
and the cursor are `bv8`, so both wrap around as in the original. The store
is an immutable value, and every operation returns the updated store.

### Where the code and its comments disagree (the model follows the code)

- **Transient markers after a call.** The comments at
  `NovaDetourNavmeshIslandIndexer.cpp:213-215` and `:265-267` say that
  `OnRegenerateTiles` removes the FLOODED marker once it has set the final
  label. It removes it only from the polygons of the working tiles
  (`cpp:387-413`). A flood can also enter a polygon outside them, and that
  polygon keeps its FLOODED word. There are two ways this happens:
  1. The polygon's word was 0.
  2. Its tile's stamp equals the current render pass, although this call did
     not stamp the tile. The pass is an 8-bit static that starts at 0 and is
     incremented after every call (`cpp:368`, `:441`), so it wraps around.
     A tile that was never stamped keeps the pass 0 that `init` wrote
     (`cpp:84`). On every 256th call such a tile looks dirty at `cpp:184`,
     and a flood claims its polygons even when they carry a settled
     non-zero label. This contradicts "anything using a stale renderpass is
     NOT dirty" (`cpp:373`). `Driver.StaleTileLooksDirty` states the
     condition.

  `Driver.HandlePolygon` states which words a flood may rewrite: only
  eligible ones, and each becomes the flooded word of the committed label.
- **`init` result.** `Initialize` treats a `false` result of `init` as failure
  (`cpp:345-346`). Yet `init` returns `false` for every non-empty mesh, even
  when every allocation succeeded (`cpp:97-99`).
- **Upper half of each word array.** `init` clears only the first 64 words of
  each tile's array (`cpp:94`). This is because the `memset` byte count is
  the word count.

### Notes on labels

- A flood adopts the low byte of the first stable polygon of a clean tile
  whose low byte is non-zero (`cpp:184-188`). A stable polygon with a zero
  low byte is skipped without effect.
- The cursor mints 1, 2, …, 255 and then cycles through 16..255 (`cpp:251`).
  So the first 255 minted labels are distinct, as `h:36` promises, and the
  256th repeats the 16th. The 255th label equals the low-byte mask value
  0xff of `h:38`. The code treats it as an ordinary label.

## Model

| member | source | states |
|---|---|---|
| IslandConsts.FloodedWord | NovaDetourNavmeshIslandIndexer.cpp:262-268 | the word a finished flood writes carries the FLOODED marker and keeps the island label in its low byte |
| IslandConsts.Commit | NovaDetourNavmeshIslandIndexer.cpp:410-411 | the committed value has no transient marker, fits in the label byte, keeps the label, and is 0 exactly when the label is 0 |
| IslandConsts.CommitFloodedWord | NovaDetourNavmeshIslandIndexer.h:38-40 | committing a flooded word gives back exactly the flood's label; a word that is only UNASSIGNED commits as 0 |
| IslandConsts.BitLayout | NovaDetourNavmeshIslandIndexer.h:38-40 | the two markers are distinct single bits above the label range, outside the label mask, and setting either leaves the label unchanged |
| IslandConsts.Capacities | NovaDetourNavmeshIslandIndexer.h:43-55 | the open and pending capacities, the slots per tile, the tile cap, the cursor constants and the initial-update default |
| LabelCursor.Next | NovaDetourNavmeshIslandIndexer.cpp:251 | one mint never yields 0; it steps up by one below 255 and restarts at 16 from 255 |
| LabelCursor.Orbit | NovaDetourNavmeshIslandIndexer.h:33-36 | closed form of the k-th minted label from a fresh store: k up to 255, then 16 + (k - 256) mod 240 |
| LabelCursor.MintedRange | NovaDetourNavmeshIslandIndexer.h:34-36 | every minted label lies in 1..255; once the cursor has wrapped, every label is at least 16 |
| LabelCursor.UniqueBelowMax | NovaDetourNavmeshIslandIndexer.h:36 | the first 255 labels minted from a fresh cursor are pairwise distinct |
| LabelCursor.FirstRepeat | NovaDetourNavmeshIslandIndexer.h:35-36 | the 256th minted label repeats the 16th: after 255 islands labels are reused from 16 on |
| LabelCursor.MintsMaskValue | NovaDetourNavmeshIslandIndexer.h:36-38 | the 255th mint yields the label-mask value 0xff |
| LabelCursor.Period | NovaDetourNavmeshIslandIndexer.h:35-36 | after wrapping, labels repeat every 240 mints, so islands beyond that share labels |
| FlagStore.Init | NovaDetourNavmeshIslandIndexer.cpp:68-100 | result true only for a zero-tile mesh; tile count capped at 16384; cursor at 0; every pass stamp 0; slots exist for tiles whose array was obtained; slots 0..63 are 0 and slots 64..127 keep the old memory; bound to the mesh only when every allocation succeeded |
| FlagStore.InitReportsFailure | NovaDetourNavmeshIslandIndexer.cpp:97-99 | a fully successful initialisation of a non-empty mesh still reports false, yet yields a complete store |
| FlagStore.SetFlags | NovaDetourNavmeshIslandIndexer.cpp:103-117 | reading a polygon's word back yields what was written; every other slot, the pass stamps and the cursor are unchanged |
| FlagStore.FlagsReadBack | NovaDetourNavmeshIslandIndexer.cpp:103-109 | `getFlags` reads back the word stored for the polygon: the value of the last `setFlags` of that polygon, untouched by writes to other polygons or by stamping a tile |
| FlagStore.PassReadBack | NovaDetourNavmeshIslandIndexer.cpp:119-122 | `getLastRenderPassForTile` reads back the tile's stored stamp: the value of the last `setLastRenderPassForTile` of that tile, untouched by stamping other tiles or by writing a word |
| FlagStore.SetLastRenderPassForTile | NovaDetourNavmeshIslandIndexer.cpp:119-127 | reading a tile's stamp back yields the written pass; every other tile and all words are unchanged |
| Flood.BlockedIffNotEligible | NovaDetourNavmeshIslandIndexer.cpp:170-200 | a neighbour is skipped (marked, or stable in a clean tile) exactly when the flood may not claim it |
| Flood.ClaimKeepsInv | NovaDetourNavmeshIslandIndexer.cpp:202-216 | claiming an eligible unclaimed neighbour queues it as pending (label unknown, word UNASSIGNED) or stamps it at once (label known), appends exactly that polygon to the claim order with the polygon whose link led to it, and keeps the walk invariant |
| Flood.AdoptKeepsInv | NovaDetourNavmeshIslandIndexer.cpp:184-197 | adopting the non-zero label of a stable polygon in a clean tile, met over a link of a claimed polygon, keeps the walk invariant and claims nothing |
| Flood.PushKeepsInv | NovaDetourNavmeshIslandIndexer.cpp:241-243 | pushing a claimed polygon below capacity keeps the walk invariant |
| Flood.PopKeepsInv | NovaDetourNavmeshIslandIndexer.cpp:145-148 | popping takes the top of the open stack and keeps the walk invariant |
| Flood.TreeReachable | NovaDetourNavmeshIslandIndexer.cpp:165-243 | every polygon of a claim tree is reachable from its root over a chain of links |
| Flood.PathTo | NovaDetourNavmeshIslandIndexer.cpp:165-243 | reading the claim tree back from a claimed polygon gives a link path that starts at the start polygon and ends at that polygon |
| Flood.VisitLink | NovaDetourNavmeshIslandIndexer.cpp:165-243 | after one link the neighbour is claimed or blocked; at most that neighbour is newly claimed; it is stacked unless the stack was full, which stops the link loop, and a stop leaves the stack full with more than 1024 polygons claimed; while no label is known, a neighbour whose label would be adopted is adopted, with the expanded polygon recorded as the link it was met over; a known label and its origin never change |
| Flood.MeetStable | NovaDetourNavmeshIslandIndexer.cpp:184-197 | a stable polygon of a clean tile is never entered; its label is adopted exactly when none is known yet and its low byte is non-zero |
| Flood.ClaimNeighbour | NovaDetourNavmeshIslandIndexer.cpp:202-243 | an eligible neighbour is claimed, and pushed unless the open stack is full, exactly when the loop stops; a stop leaves more than 1024 polygons claimed; the label is untouched |
| Flood.ExpandPolygon | NovaDetourNavmeshIslandIndexer.cpp:162-244 | a cut leaves the open stack full and more than 1024 polygons claimed; without one, every link of the popped polygon leads to a claimed or blocked polygon, every newly claimed polygon is stacked, and if no label is known afterwards, no link of the popped polygon leads to a polygon whose label would be adopted |
| Flood.Traverse | NovaDetourNavmeshIslandIndexer.cpp:134-245 | the traversal terminates; a cut means more than 1024 polygons were claimed and the stack once reached its capacity; without a cut, every claimed polygon is closed (each link leads to a claimed or blocked polygon), and when no label was found, no claimed polygon has a link to a polygon whose label would be adopted |
| Flood.SettlePending | NovaDetourNavmeshIslandIndexer.cpp:262-268 | every pending polygon gets the flooded word of the decided label; every other slot is unchanged |
| Flood.Conclude | NovaDetourNavmeshIslandIndexer.cpp:247-268 | an adopted label is kept and the cursor is untouched; otherwise the cursor advances once and supplies the label; every claimed polygon carries the flooded word of that label and nothing else changes |
| Flood.FloodNavmesh | NovaDetourNavmeshIslandIndexer.cpp:130-284 | label in 1..255; start first in the pending list; each polygon claimed once, and every claimed polygon other than the start was reached over a link of one claimed before it; claimed polygons carry the flooded label word and were eligible; nothing else changes; an adopted label comes from a stable clean polygon linked from a claimed one, otherwise the cursor advanced once and supplied the label, and without a cut no claimed polygon links to a polygon whose label would have been adopted; the deepest the stack got is within capacity; a cut needs more than 1024 claimed polygons and a stack that reached capacity; without a cut, the claimed set is closed under links |
| Driver.FirstRegeneration | NovaDetourNavmeshIslandIndexer.cpp:370-386 | the first regeneration after `Attach` (which re-arms the initial update) commits every polygon of the mesh whatever the changed list holds, and stamps no tile |
| Driver.StampTiles | NovaDetourNavmeshIslandIndexer.cpp:371-378 | exactly the listed tiles carry the given pass afterwards; words and every other stamp are unchanged |
| Driver.StaleTileLooksDirty | NovaDetourNavmeshIslandIndexer.cpp:368-376 | a tile the call did not stamp but whose stamp equals the current 8-bit pass looks dirty: its unmarked polygons are eligible and none is stable |
| Driver.WorkingTiles | NovaDetourNavmeshIslandIndexer.cpp:383-386 | the initial update walks every tile index of the mesh; later updates walk exactly the changed list |
| Driver.HandlePolygon | NovaDetourNavmeshIslandIndexer.cpp:392-412 | floods exactly when the word lacks FLOODED, and then claims the polygon itself first; the store and the provider get the same plain label, non-zero after a flood; a minted label is the cursor's next value, any other flood label is the label of a stable polygon in a clean tile; every other polygon the flood claimed was eligible and carries the flooded word of the committed label; without a cut the claimed set is closed under links and, when minted, links to no polygon whose label would have been adopted; a cut needs more than 1024 claimed polygons; an already flooded word commits its own label; a word the flood did not claim is unchanged; every claimed polygon is reachable from the start polygon over a chain of links, and an adopted label is the label of a stable clean polygon that a link of a claimed polygon leads to |
| Driver.HandleTile | NovaDetourNavmeshIslandIndexer.cpp:387-420 | a tile without a header is skipped; otherwise the tile's polygons are committed in polygon order, keeping the call's progress invariant |
| Driver.OnRegenerateTiles | NovaDetourNavmeshIslandIndexer.cpp:364-445 | only later updates stamp the changed tiles; the handled polygons are those of the working tiles, tile by tile and in polygon order; each carries a plain label in the provider, and in the store unless a later flood re-marked it; the rest of the provider is unchanged; unused slots and stable clean polygons keep their words; the cursor advanced once per mint; the pass advances with wrap-around; the initial update is over; every handled polygon gets a non-zero label unless its word was already flooded with label 0; a word changed outside the handled polygons carries FLOODED |

## Left out

- Debug drawing, logging, the cycle-stat counter, the `polyRefsFlooded` bookkeeping set and the `iteration` argument. They only observe the flood.
- `Initialize` and `Cleanup`, the constructors and destructors, and the allocation of the open and pending arrays. `Driver.Attach` keeps only the reset of the initial-update flag. Allocation outcomes of `init` are parameters of `FlagStore.Init`.
- Detour's reference encoding (salt, tile and polygon bits) and its link chains. A reference is already decoded into `PolyRef(tile, poly)`, and a polygon's links are a sequence in chain order.
- The navigation provider's `setPolyFlags` is a map from polygon to committed value. The rest of the provider is not modelled.
- The pending list has no capacity bound. The original writes past its 1024 entries without a check, which is undefined behaviour that a value model cannot express.
- Flood.FloodNavmesh: requires that the mesh fits the store (at most as many tiles as the store holds, at most 128 polygons per tile) and a valid start reference. The original indexes without bounds checks, and out-of-range access is undefined behaviour.
- Driver.OnRegenerateTiles: requires changed tile indices inside the mesh on later updates, for the same reason. The initial update never reads the list. It does not say which label each polygon ends with across several floods of one call. It states only that the labels are plain and committed.
- The render-pass counter is a function-level static in the original. Here it is a field of the indexer value.
- The commented-out `handleRender` block is left out.

=== FILE: consts.dfy ===
/** Bit layout of a label word and the fixed capacities of the island indexer. */
module IslandConsts {

  /** First value of the label cursor. */
  const POLYFLAGS_START: bv8 := 0
  /** Value the label cursor restarts from once it has reached the top of the range. */
  const POLYFLAGS_STARTLOOP: bv8 := 16
  /** Top of the label range: a cursor at or above it wraps. */
  const POLYFLAGS_UNIQUE_MAX: bv8 := 255

  /** The island label occupies the low byte of a label word. */
  const LABEL_MASK: bv16 := 0xff
  /** Transient marker: polygon was finished by a flood during the current driver call. */
  const FLOODED: bv16 := 1 << 9
  /** Transient marker: polygon was visited by the running flood, label not yet known. */
  const UNASSIGNED: bv16 := 1 << 10

  const MAX_POLY_PER_TILE: nat := 128
  const PURGE_MAX_TILES: nat := 16384
  const PENDING_MAX: nat := 1024
  const OPEN_MAX: nat := 1024

  /** A freshly created indexer processes every tile on its first update. */
  const INITIAL_UPDATE_DEFAULT: bool := true

  /** The island label carried by a word. */
  function Label(w: bv16): (low: bv16) {
    w & LABEL_MASK
  }

  /** Whether a word carries either transient marker. */
  predicate HasTransient(w: bv16) {
    w & UNASSIGNED != 0 || w & FLOODED != 0
  }

  predicate IsFlooded(w: bv16) {
    w & FLOODED != 0
  }

  /** The word written for a polygon a flood has finished with label `island`. */
  function FloodedWord(island: bv16): (w: bv16)
    requires island <= LABEL_MASK
    ensures IsFlooded(w) && HasTransient(w)
    ensures Label(w) == island
  {
    island | FLOODED
  }

  /**
   * The plain label the driver commits for a word: the transient markers are
   * gone and the island label is kept.
   */
  function Commit(w: bv16): (c: bv16)
    ensures !HasTransient(c) && !IsFlooded(c)
    ensures c <= LABEL_MASK
    ensures Label(c) == Label(w)
    ensures Label(w) == 0 <==> c == 0
  {
    w & LABEL_MASK
  }

  /**
   * Committing the word a flood left on a polygon yields exactly the flood's
   * label; a polygon left visited but unassigned would commit as 0.
   */
  lemma CommitFloodedWord(island: bv16)
    requires island <= LABEL_MASK
    ensures Commit(FloodedWord(island)) == island
    ensures Commit(UNASSIGNED) == 0
  {
  }

  /**
   * The markers are distinct single bits above the whole label range and
   * outside the label mask, so masking strips both and keeps the label.
   */
  lemma BitLayout()
    ensures FLOODED != UNASSIGNED
    ensures FLOODED & (FLOODED - 1) == 0 && UNASSIGNED & (UNASSIGNED - 1) == 0
    ensures FLOODED > POLYFLAGS_UNIQUE_MAX as bv16 && UNASSIGNED > POLYFLAGS_UNIQUE_MAX as bv16
    ensures LABEL_MASK & (FLOODED | UNASSIGNED) == 0
    ensures forall w: bv16 {:trigger Label(w)} :: Label(w) & (FLOODED | UNASSIGNED) == 0
    ensures forall w: bv16 {:trigger Label(w)} :: Label(w | FLOODED) == Label(w) && Label(w | UNASSIGNED) == Label(w)
  {
  }

  lemma Capacities()
    ensures OPEN_MAX == PENDING_MAX == 1024
    ensures MAX_POLY_PER_TILE == 128 && PURGE_MAX_TILES == 16384
    ensures POLYFLAGS_START < POLYFLAGS_STARTLOOP <= POLYFLAGS_UNIQUE_MAX
    ensures INITIAL_UPDATE_DEFAULT
  {
  }
}

=== FILE: cursor.dfy ===
/** The cyclic cursor from which fresh island labels are minted. */
module LabelCursor {
  import opened IslandConsts

  /** Advance the cursor: one step up, or back to the restart value from the top. */
  function Next(c: bv8): (n: bv8)
    ensures n != 0
    ensures c < POLYFLAGS_UNIQUE_MAX ==> n as int == c as int + 1
    ensures c >= POLYFLAGS_UNIQUE_MAX ==> n == POLYFLAGS_STARTLOOP
  {
    if c >= POLYFLAGS_UNIQUE_MAX then POLYFLAGS_STARTLOOP else c + 1
  }

  /** The cursor after `k` mints starting from `c`. */
  function Advance(c: bv8, k: nat): (c': bv8)
  {
    if k == 0 then c else Next(Advance(c, k - 1))
  }

  /**
   * Closed form of the cursor sequence from its initial value: it climbs
   * 1, 2, ..., 255 and then cycles through the 240 values 16..255.
   */
  lemma {:induction false} Orbit(k: nat)
    ensures Advance(POLYFLAGS_START, k) as int == if k <= 255 then k else 16 + (k - 256) % 240
  {
    if k == 0 {
    } else {
      Orbit(k - 1);
      var prev := Advance(POLYFLAGS_START, k - 1);
      if k - 1 <= 254 {
        assert prev as int == k - 1;
      } else if k - 1 == 255 {
        assert prev == 255;
      } else {
        assert prev as int == 16 + (k - 257) % 240;
        if (k - 257) % 240 == 239 {
          assert (k - 256) % 240 == 0;
        } else {
          assert (k - 256) % 240 == (k - 257) % 240 + 1;
        }
      }
    }
  }

  /** Every minted label is non-zero; once the cursor has wrapped, every label is at least 16. */
  lemma MintedRange(k: nat)
    requires k >= 1
    ensures 1 <= Advance(POLYFLAGS_START, k) <= POLYFLAGS_UNIQUE_MAX
    ensures k > 255 ==> POLYFLAGS_STARTLOOP <= Advance(POLYFLAGS_START, k)
  {
    Orbit(k);
  }

  /** The 255th mint yields 255, the value reserved for the label mask. */
  lemma MintsMaskValue()
    ensures Advance(POLYFLAGS_START, 255) as bv16 == LABEL_MASK
  {
    Orbit(255);
  }

  /** The first 255 mints from a fresh cursor yield pairwise distinct labels. */
  lemma UniqueBelowMax(i: nat, j: nat)
    requires 1 <= i < j <= POLYFLAGS_UNIQUE_MAX as nat
    ensures Advance(POLYFLAGS_START, i) != Advance(POLYFLAGS_START, j)
  {
    Orbit(i);
    Orbit(j);
  }

  /** The 256th mint repeats the label of the 16th: uniqueness ends right after 255 islands. */
  lemma FirstRepeat()
    ensures Advance(POLYFLAGS_START, 256) == Advance(POLYFLAGS_START, 16)
  {
    Orbit(256);
    Orbit(16);
  }

  /** After wrapping, labels repeat with period 240: distinct islands beyond that share labels. */
  lemma {:induction false} Period(k: nat)
    requires k >= 256
    ensures Advance(POLYFLAGS_START, k + 240) == Advance(POLYFLAGS_START, k)
  {
    var m := k - 256;
    assert (m + 240) % 240 == m % 240 by {
      assert m + 240 == (m / 240 + 1) * 240 + m % 240;
    }
    Orbit(k);
    Orbit(k + 240);
    var a := Advance(POLYFLAGS_START, k);
    var b := Advance(POLYFLAGS_START, k + 240);
    assert a as int == b as int;
  }
}

=== FILE: driver.dfy ===
/**
 * The regeneration driver: stamps the changed tiles with the current render
 * pass, floods every polygon of the working tiles that is not yet flooded,
 * and commits the plain label to the store and to the navigation provider.
 */
module Driver {
  import opened IslandConsts
  import opened NavMesh
  import opened FlagStore
  import opened Flood
  import LabelCursor

  /**
   * The indexer: its store, the initial-update flag, and the render pass
   * counter (a function-level static in the original, shared by every call).
   */
  datatype Indexer = Indexer(store: Store, initialUpdate: bool, renderPass: bv8)

  /**
   * Bind an initialised store. Initialisation re-arms the initial update but
   * does not reset the render pass counter, which outlives the indexer.
   */
  function Attach(store: Store, renderPass: bv8): (ix: Indexer)
    ensures ix.initialUpdate && ix.initialUpdate == INITIAL_UPDATE_DEFAULT
    ensures ix.store == store && ix.renderPass == renderPass
  {
    Indexer(store, INITIAL_UPDATE_DEFAULT, renderPass)
  }

  /** Stamp every listed tile with `pass`, in list order. */
  function StampTiles(s: Store, changed: seq<nat>, pass: bv8): (s': Store)
    requires forall i :: 0 <= i < |changed| ==> changed[i] < |s.passes|
    ensures |s'.passes| == |s.passes|
    ensures forall t :: 0 <= t < |s.passes| ==>
      s'.passes[t] == if t in changed then pass else s.passes[t]
    ensures s'.words == s.words && s'.ntiles == s.ntiles && s'.nextFlag == s.nextFlag && s'.attached == s.attached
    ensures s.Valid() ==> s'.Valid()
    decreases |changed|
  {
    if changed == [] then s
    else
      var s1 := SetLastRenderPassForTile(s, changed[0], pass);
      assert forall t :: t in changed <==> t == changed[0] || t in changed[1..];
      StampTiles(s1, changed[1..], pass)
  }

  /**
   * The render pass is 8 bits wide, so a tile whose stamp equals the current
   * pass looks dirty although this call did not stamp it: a flood may claim
   * its settled polygons. A tile that was never stamped keeps pass 0 and so
   * looks dirty on every 256th call.
   */
  lemma StaleTileLooksDirty(ix: Indexer, changed: seq<nat>, r: PolyRef)
    requires forall i :: 0 <= i < |changed| ==> changed[i] < |ix.store.passes|
    requires r in ix.store.words && r.tile < |ix.store.passes| && r.tile !in changed
    requires ix.store.passes[r.tile] == ix.renderPass && !HasTransient(ix.store.words[r])
    ensures Eligible(StampTiles(ix.store, changed, ix.renderPass), ix.renderPass, r)
    ensures !StableClean(StampTiles(ix.store, changed, ix.renderPass), ix.renderPass, r)
  {
  }

  /** The tile indices below `n`, in increasing order. */
  function AllTiles(n: nat): (all: seq<nat>)
    ensures |all| == n
    ensures forall t :: 0 <= t < n ==> all[t] == t
  {
    if n == 0 then [] else AllTiles(n - 1) + [n - 1]
  }

  /** The tiles a driver call walks: all of them on the initial update, otherwise the changed ones. */
  function WorkingTiles(mesh: Mesh, ix: Indexer, changed: seq<nat>): (working: seq<nat>)
    requires !ix.initialUpdate ==> forall i :: 0 <= i < |changed| ==> changed[i] < |mesh.tiles|
    ensures ix.initialUpdate ==> forall t :: t in working <==> 0 <= t < |mesh.tiles|
    ensures !ix.initialUpdate ==> working == changed
    ensures forall i :: 0 <= i < |working| ==> working[i] < |mesh.tiles|
  {
    if ix.initialUpdate then
      var all := AllTiles(|mesh.tiles|);
      forall t | t in all ensures t < |mesh.tiles| {
        var k :| 0 <= k < |all| && all[k] == t;
      }
      forall t | 0 <= t < |mesh.tiles| ensures t in all {
        assert all[t] == t;
      }
      all
    else
      changed
  }

  /**
   * Handle one polygon of a working tile: flood from it unless it is already
   * flooded, then commit its plain label to the store and to the provider.
   * `claimed` lists the polygons the flood claimed (empty without a flood)
   * and `truncated` reports that the flood's open stack overflowed.
   */
  method HandlePolygon(mesh: Mesh, st: Store, renderPass: bv8, provider: map<PolyRef, bv16>, ref: PolyRef)
    returns (st': Store, provider': map<PolyRef, bv16>, flooded: bool, minted: bool,
             claimed: seq<PolyRef>, truncated: bool)
    requires Fits(mesh, st) && IsRef(mesh, ref)
    ensures Fits(mesh, st') && st'.ntiles == st.ntiles && st'.passes == st.passes
    ensures st'.words.Keys == st.words.Keys
    ensures st'.nextFlag == if minted then LabelCursor.Next(st.nextFlag) else st.nextFlag
    ensures minted ==> flooded
    ensures flooded <==> !IsFlooded(st.words[ref])
    ensures ref in provider' && st'.words[ref] == provider'[ref] && !HasTransient(provider'[ref])
    ensures provider'[ref] <= LABEL_MASK
    ensures !flooded ==> claimed == [] && !truncated
    ensures flooded ==> |claimed| > 0 && claimed[0] == ref
    ensures forall r :: r in claimed && r != ref ==> r in st'.words && st'.words[r] == FloodedWord(provider'[ref])
    ensures forall r :: r in claimed && r != ref ==> Eligible(st, renderPass, r)
    ensures forall r :: r in st.words && r !in claimed && r != ref ==> st'.words[r] == st.words[r]
    ensures flooded && !truncated ==> AllClosed(mesh, st, renderPass, Members(claimed))
    ensures truncated ==> |Members(claimed)| > OPEN_MAX
    ensures minted ==> provider'[ref] == LabelCursor.Next(st.nextFlag) as bv16
    ensures minted && !truncated ==> AllUnlabelled(mesh, st, renderPass, ref, Members(claimed))
    ensures flooded && !minted ==> LinkedLabel(mesh, st, renderPass, claimed, provider'[ref])
    ensures forall r :: r in claimed ==> Reachable(mesh, ref, r)
    ensures !flooded ==> provider'[ref] == Commit(st.words[ref])
    ensures flooded ==> provider'[ref] != 0
    ensures forall r :: r in provider' <==> r in provider || r == ref
    ensures forall r :: r in provider && r != ref ==> provider'[r] == provider[r]
    ensures forall r :: r in st.words && r != ref && st'.words[r] != st.words[r] ==>
      flooded && IsRef(mesh, r) && Eligible(st, renderPass, r) && st'.words[r] == FloodedWord(provider'[ref])
    ensures !flooded ==> forall r :: r in st.words && r != ref ==> st'.words[r] == st.words[r]
  {
    RefInStore(mesh, st, ref);
    var flag := GetFlags(st, ref);
    st' := st;
    flooded := false;
    minted := false;
    claimed := [];
    truncated := false;
    if flag & FLOODED == 0 {
      // not yet flooded in this call: the flood stamps it with a label and FLOODED
      var island;
      st', island, claimed, minted, truncated := FloodAndCommit(mesh, st, renderPass, ref);
      flooded := true;
      provider' := provider[ref := island];
      return;
    }
    var plain := Commit(flag);
    st' := SetFlags(st', ref, plain);
    provider' := provider[ref := plain];
  }

  /**
   * Flood from `ref` with `FloodFrom`, then commit `ref`'s own word: its flooded word loses
   * the FLOODED marker and keeps the label. Reports the label, the claimed
   * polygons, whether the label was minted, and whether the open stack
   * overflowed.
   */
  method FloodAndCommit(mesh: Mesh, st: Store, renderPass: bv8, ref: PolyRef)
    returns (st': Store, island: bv16, claimed: seq<PolyRef>, minted: bool, truncated: bool)
    requires Fits(mesh, st) && IsRef(mesh, ref)
    ensures Fits(mesh, st') && st'.ntiles == st.ntiles && st'.passes == st.passes
    ensures st'.words.Keys == st.words.Keys
    ensures st'.nextFlag == if minted then LabelCursor.Next(st.nextFlag) else st.nextFlag
    ensures 0 < island <= LABEL_MASK
    ensures |claimed| > 0 && claimed[0] == ref
    ensures ref in st'.words && st'.words[ref] == island
    ensures forall r :: r in claimed ==> IsRef(mesh, r) && r in st'.words
    ensures forall r :: r in claimed && r != ref ==> st'.words[r] == FloodedWord(island)
    ensures forall r :: r in st.words && r !in claimed ==> st'.words[r] == st.words[r]
    ensures forall r :: r in claimed && r != ref ==> Eligible(st, renderPass, r)
    ensures !truncated ==> AllClosed(mesh, st, renderPass, Members(claimed))
    ensures truncated ==> |Members(claimed)| > OPEN_MAX
    ensures minted ==> island == LabelCursor.Next(st.nextFlag) as bv16
    ensures minted && !truncated ==> AllUnlabelled(mesh, st, renderPass, ref, Members(claimed))
    ensures !minted ==> LinkedLabel(mesh, st, renderPass, claimed, island)
    ensures forall r :: r in claimed ==> Reachable(mesh, ref, r)
  {
    st', island, claimed, minted, truncated := FloodFrom(mesh, st, renderPass, ref);
    forall r | r in claimed
      ensures r in st'.words
    {
      RefInStore(mesh, st', r);
    }
    var flag := GetFlags(st', ref);
    assert Commit(flag) == island;
    st' := SetFlags(st', ref, Commit(flag));
  }

  /**
   * Flood from `ref` and report what the flood decided, before `ref`'s own
   * word is committed: the label, the claimed polygons, whether the label
   * was minted, and whether the open stack overflowed.
   */
  method FloodFrom(mesh: Mesh, st: Store, renderPass: bv8, ref: PolyRef)
    returns (st': Store, island: bv16, claimed: seq<PolyRef>, minted: bool, truncated: bool)
    requires Fits(mesh, st) && IsRef(mesh, ref)
    ensures Fits(mesh, st') && st'.ntiles == st.ntiles && st'.passes == st.passes
    ensures st'.words.Keys == st.words.Keys
    ensures st'.nextFlag == if minted then LabelCursor.Next(st.nextFlag) else st.nextFlag
    ensures 0 < island <= LABEL_MASK
    ensures |claimed| > 0 && claimed[0] == ref
    ensures forall r :: r in claimed ==> IsRef(mesh, r) && st'.words[r] == FloodedWord(island)
    ensures forall r :: r in st.words && r !in claimed ==> st'.words[r] == st.words[r]
    ensures forall r :: r in claimed && r != ref ==> Eligible(st, renderPass, r)
    ensures !truncated ==> AllClosed(mesh, st, renderPass, Members(claimed))
    ensures truncated ==> |Members(claimed)| > OPEN_MAX
    ensures minted ==> island == LabelCursor.Next(st.nextFlag) as bv16
    ensures minted && !truncated ==> AllUnlabelled(mesh, st, renderPass, ref, Members(claimed))
    ensures !minted ==> LinkedLabel(mesh, st, renderPass, claimed, island)
    ensures forall r :: r in claimed ==> Reachable(mesh, ref, r)
  {
    var pending, direct, parents, origin, peak;
    st', island, pending, direct, parents, origin, truncated, peak := FloodNavmesh(mesh, st, renderPass, ref);
    minted := origin.Minted?;
    claimed := pending + direct;
    if !minted {
      var f, v := origin.from, origin.via;
      assert v in claimed && IsRef(mesh, v) && Link(f) in Links(mesh, v);
      assert IsRef(mesh, f) && StableClean(st, renderPass, f) && island == Label(st.words[f]);
    }
    forall r | r in claimed
      ensures Reachable(mesh, ref, r)
    {
      TreeReachable(mesh, claimed, parents, r);
    }
  }

  /**
   * What holds between two polygons of a driver call: the store differs from
   * the stamped store `stamped` only in its words, the cursor moved once per
   * minted label, every committed polygon carries a plain label in the
   * provider and, unless a later flood re-stamped it, the same word in the
   * store, the provider is otherwise untouched, and neither unused slots nor
   * stable polygons of clean tiles outside the working tiles were written.
   */
  ghost predicate Progress(mesh: Mesh, stamped: Store, renderPass: bv8, working: seq<nat>, cursor: bv8,
                           provider0: map<PolyRef, bv16>, st: Store, provider: map<PolyRef, bv16>,
                           handled: seq<PolyRef>, mints: nat, floodPasses: nat)
  {
    && Fits(mesh, st) && st.ntiles == stamped.ntiles && st.passes == stamped.passes
    && st.words.Keys == stamped.words.Keys
    && mints <= floodPasses
    && st.nextFlag == LabelCursor.Advance(cursor, mints)
    && (forall r :: r in handled ==>
          && IsRef(mesh, r) && r in st.words
          && r in provider && provider[r] <= LABEL_MASK && !HasTransient(provider[r])
          && (st.words[r] == provider[r] || IsFlooded(st.words[r])))
    && (forall r :: r in provider <==> r in provider0 || r in handled)
    && (forall r :: r in provider0 && r !in handled ==> provider[r] == provider0[r])
    && (forall r :: r in stamped.words && !IsRef(mesh, r) ==> st.words[r] == stamped.words[r])
    && (forall r :: r in stamped.words && r.tile !in working && StableClean(stamped, renderPass, r) ==>
          st.words[r] == stamped.words[r])
  }

  /**
   * What a driver call keeps of the labels, beside `Progress`: a word a flood
   * rewrote that still carries FLOODED has a non-zero label; a handled
   * polygon got a non-zero label unless its word already carried FLOODED
   * with label 0 when the call began; and a word changed outside the handled
   * polygons carries FLOODED and was eligible for a flood in `stamped`.
   */
  ghost predicate LabelsKept(stamped: Store, renderPass: bv8, st: Store, provider: map<PolyRef, bv16>,
                             handled: seq<PolyRef>)
  {
    && st.words.Keys == stamped.words.Keys && st.passes == stamped.passes
    && (forall r :: r in handled ==> r in provider && r in stamped.words)
    && (forall r :: r in stamped.words && st.words[r] != stamped.words[r] && IsFlooded(st.words[r]) ==>
          Label(st.words[r]) != 0)
    && (forall r :: r in handled && !(IsFlooded(stamped.words[r]) && Label(stamped.words[r]) == 0) ==>
          provider[r] != 0)
    && (forall r :: r in stamped.words && r !in handled && st.words[r] != stamped.words[r] ==>
          IsFlooded(st.words[r]) && Eligible(stamped, renderPass, r))
  }

  /** Handling one more polygon keeps `LabelsKept`. */
  lemma HandleKeepsLabels(stamped: Store, renderPass: bv8, st: Store, provider: map<PolyRef, bv16>,
                          handled: seq<PolyRef>, ref: PolyRef, st': Store, provider': map<PolyRef, bv16>, flooded: bool)
    requires LabelsKept(stamped, renderPass, st, provider, handled)
    requires ref in st.words && st'.words.Keys == st.words.Keys && st'.passes == st.passes
    requires flooded <==> !IsFlooded(st.words[ref])
    requires ref in provider' && st'.words[ref] == provider'[ref] && !HasTransient(provider'[ref])
    requires provider'[ref] <= LABEL_MASK
    requires !flooded ==> provider'[ref] == Commit(st.words[ref])
    requires flooded ==> provider'[ref] != 0
    requires forall r :: r in provider ==> r in provider'
    requires forall r :: r in provider && r != ref ==> provider'[r] == provider[r]
    requires forall r :: r in st.words && r != ref && st'.words[r] != st.words[r] ==>
      flooded && Eligible(st, renderPass, r) && st'.words[r] == FloodedWord(provider'[ref])
    ensures LabelsKept(stamped, renderPass, st', provider', handled + [ref])
  {
    forall r | r in stamped.words && st'.words[r] != stamped.words[r] && IsFlooded(st'.words[r])
      ensures Label(st'.words[r]) != 0
    {
      if r != ref && st'.words[r] != st.words[r] {
        assert Label(FloodedWord(provider'[ref])) == provider'[ref];
      }
    }
    forall r | r in handled + [ref] && !(IsFlooded(stamped.words[r]) && Label(stamped.words[r]) == 0)
      ensures provider'[r] != 0
    {
      if r == ref && !flooded && st.words[ref] == stamped.words[ref] {
        assert Label(st.words[ref]) != 0;
      }
    }
    forall r | r in stamped.words && r !in handled + [ref] && st'.words[r] != stamped.words[r]
      ensures IsFlooded(st'.words[r]) && Eligible(stamped, renderPass, r)
    {
      if st'.words[r] != st.words[r] {
        assert st.words[r] == stamped.words[r];
      }
    }
  }

  lemma HandleKeepsProgress(mesh: Mesh, stamped: Store, renderPass: bv8, working: seq<nat>, cursor: bv8,
                            provider0: map<PolyRef, bv16>, st: Store, provider: map<PolyRef, bv16>,
                            handled: seq<PolyRef>, mints: nat, floodPasses: nat,
                            ref: PolyRef, st': Store, provider': map<PolyRef, bv16>, flooded: bool, minted: bool)
    requires Progress(mesh, stamped, renderPass, working, cursor, provider0, st, provider, handled, mints, floodPasses)
    requires IsRef(mesh, ref) && ref.tile in working
    requires Fits(mesh, st') && st'.ntiles == st.ntiles && st'.passes == st.passes
    requires st'.words.Keys == st.words.Keys
    requires st'.nextFlag == if minted then LabelCursor.Next(st.nextFlag) else st.nextFlag
    requires minted ==> flooded
    requires ref in provider' && st'.words[ref] == provider'[ref] && !HasTransient(provider'[ref])
    requires provider'[ref] <= LABEL_MASK
    requires forall r :: r in provider' <==> r in provider || r == ref
    requires forall r :: r in provider && r != ref ==> provider'[r] == provider[r]
    requires forall r :: r in st.words && r != ref && st'.words[r] != st.words[r] ==>
      IsRef(mesh, r) && Eligible(st, renderPass, r) && IsFlooded(st'.words[r])
    ensures Progress(mesh, stamped, renderPass, working, cursor, provider0, st', provider', handled + [ref],
                     if minted then mints + 1 else mints, if flooded then floodPasses + 1 else floodPasses)
  {
    RefInStore(mesh, st, ref);
    if minted {
      assert LabelCursor.Advance(cursor, mints + 1) == LabelCursor.Next(LabelCursor.Advance(cursor, mints));
    }
    HandleKeepsUntouched(mesh, stamped, renderPass, working, cursor, provider0, st, provider, handled, mints, floodPasses,
                         ref, st');
    forall r | r in handled + [ref]
      ensures && IsRef(mesh, r) && r in st'.words
              && r in provider' && provider'[r] <= LABEL_MASK && !HasTransient(provider'[r])
              && (st'.words[r] == provider'[r] || IsFlooded(st'.words[r]))
    {
      if r != ref {
        assert r in handled;
      }
    }
    forall r ensures r in provider' <==> r in provider0 || r in handled + [ref] {
    }
    forall r | r in provider0 && r !in handled + [ref] ensures provider'[r] == provider0[r] {
    }
  }

  /** Handling a polygon of a working tile writes neither unused slots nor stable polygons of clean tiles elsewhere. */
  lemma HandleKeepsUntouched(mesh: Mesh, stamped: Store, renderPass: bv8, working: seq<nat>, cursor: bv8,
                             provider0: map<PolyRef, bv16>, st: Store, provider: map<PolyRef, bv16>,
                             handled: seq<PolyRef>, mints: nat, floodPasses: nat, ref: PolyRef, st': Store)
    requires Progress(mesh, stamped, renderPass, working, cursor, provider0, st, provider, handled, mints, floodPasses)
    requires IsRef(mesh, ref) && ref.tile in working
    requires st'.words.Keys == st.words.Keys
    requires forall r :: r in st.words && r != ref && st'.words[r] != st.words[r] ==>
      IsRef(mesh, r) && Eligible(st, renderPass, r) && IsFlooded(st'.words[r])
    ensures forall r :: r in stamped.words && r.tile !in working && StableClean(stamped, renderPass, r) ==>
      st'.words[r] == stamped.words[r]
    ensures forall r :: r in stamped.words && !IsRef(mesh, r) ==> st'.words[r] == stamped.words[r]
  {
    forall r | r in stamped.words && r.tile !in working && StableClean(stamped, renderPass, r)
      ensures st'.words[r] == stamped.words[r]
    {
      assert r != ref && !Eligible(st, renderPass, r);
    }
    forall r | r in stamped.words && !IsRef(mesh, r)
      ensures st'.words[r] == stamped.words[r]
    {
      assert r != ref;
    }
  }

  /** Handle every polygon of one working tile, in polygon order. */
  method HandleTile(mesh: Mesh, stamped: Store, renderPass: bv8, working: seq<nat>, cursor: bv8,
                    provider0: map<PolyRef, bv16>, st: Store, provider: map<PolyRef, bv16>,
                    handled: seq<PolyRef>, mints: nat, floodPasses: nat, tileIndex: nat)
    returns (st': Store, provider': map<PolyRef, bv16>, handled': seq<PolyRef>, mints': nat, floodPasses': nat)
    requires Progress(mesh, stamped, renderPass, working, cursor, provider0, st, provider, handled, mints, floodPasses)
    requires tileIndex in working && tileIndex < |mesh.tiles|
    requires LabelsKept(stamped, renderPass, st, provider, handled)
    ensures Progress(mesh, stamped, renderPass, working, cursor, provider0, st', provider', handled', mints', floodPasses')
    ensures LabelsKept(stamped, renderPass, st', provider', handled')
    ensures handled' == handled + TilePolys(mesh, tileIndex)
  {
    st', provider', handled', mints', floodPasses' := st, provider, handled, mints, floodPasses;
    var tile := mesh.tiles[tileIndex];
    if !tile.hasHeader {
      // a slot without a header holds no polygons
      assert TilePolys(mesh, tileIndex) == [];
      return;
    }
    ghost var polys := TilePolys(mesh, tileIndex);
    for j := 0 to |tile.polyLinks|
      invariant Progress(mesh, stamped, renderPass, working, cursor, provider0, st', provider', handled', mints', floodPasses')
      invariant handled' == handled + polys[..j]
      invariant LabelsKept(stamped, renderPass, st', provider', handled')
    {
      var ref := PolyRef(tileIndex, j);
      var st1, provider1, flooded, minted, claimed, truncated := HandlePolygon(mesh, st', renderPass, provider', ref);
      HandleKeepsProgress(mesh, stamped, renderPass, working, cursor, provider0, st', provider', handled', mints', floodPasses',
                          ref, st1, provider1, flooded, minted);
      RefInStore(mesh, st', ref);
      HandleKeepsLabels(stamped, renderPass, st', provider', handled', ref, st1, provider1, flooded);
      PrefixStep(handled, polys, j);
      st', provider' := st1, provider1;
      handled' := handled' + [ref];
      mints' := if minted then mints' + 1 else mints';
      floodPasses' := if flooded then floodPasses' + 1 else floodPasses';
    }
    assert polys[..|tile.polyLinks|] == polys;
  }

  lemma PrefixStep(base: seq<PolyRef>, xs: seq<PolyRef>, j: nat)
    requires j < |xs|
    ensures base + xs[..j] + [xs[j]] == base + xs[..j + 1]
  {
    assert xs[..j + 1] == xs[..j] + [xs[j]];
  }

  /** The polygons of the listed tiles, tile after tile in list order. */
  function TilesPolys(mesh: Mesh, tiles: seq<nat>): (polys: seq<PolyRef>)
    requires forall i :: 0 <= i < |tiles| ==> tiles[i] < |mesh.tiles|
    ensures forall r :: r in polys <==> IsRef(mesh, r) && r.tile in tiles
    decreases |tiles|
  {
    if tiles == [] then []
    else
      var init := tiles[..|tiles| - 1];
      assert tiles == init + [tiles[|tiles| - 1]];
      TilesPolys(mesh, init) + TilePolys(mesh, tiles[|tiles| - 1])
  }

  lemma TilesPolysStep(mesh: Mesh, tiles: seq<nat>, i: nat)
    requires i < |tiles| && forall k :: 0 <= k < |tiles| ==> tiles[k] < |mesh.tiles|
    ensures TilesPolys(mesh, tiles[..i + 1]) == TilesPolys(mesh, tiles[..i]) + TilePolys(mesh, tiles[i])
  {
    assert tiles[..i + 1][..i] == tiles[..i];
  }

  /**
   * One regeneration call. `handled` lists the polygons committed, in order;
   * `floodPasses` counts the floods started and `mints` those that minted a
   * fresh label.
   */
  method OnRegenerateTiles(mesh: Mesh, ix: Indexer, provider: map<PolyRef, bv16>, changed: seq<nat>)
    returns (ix': Indexer, provider': map<PolyRef, bv16>, handled: seq<PolyRef>, floodPasses: nat, mints: nat)
    requires Fits(mesh, ix.store)
    requires !ix.initialUpdate ==> forall i :: 0 <= i < |changed| ==> changed[i] < |mesh.tiles|
    ensures Fits(mesh, ix'.store) && ix'.store.ntiles == ix.store.ntiles
    ensures !ix'.initialUpdate
    ensures ix'.renderPass == ix.renderPass + 1
    ensures forall t :: 0 <= t < |ix.store.passes| ==>
      ix'.store.passes[t] == if !ix.initialUpdate && t in changed then ix.renderPass else ix.store.passes[t]
    ensures handled == TilesPolys(mesh, WorkingTiles(mesh, ix, changed))
    ensures forall r :: r in handled <==> IsRef(mesh, r) && (ix.initialUpdate || r.tile in changed)
    ensures forall r :: r in handled ==>
      && r in provider' && provider'[r] <= LABEL_MASK && !HasTransient(provider'[r])
      && r in ix'.store.words && (ix'.store.words[r] == provider'[r] || IsFlooded(ix'.store.words[r]))
    ensures forall r :: r in provider' <==> r in provider || r in handled
    ensures forall r :: r in provider && r !in handled ==> provider'[r] == provider[r]
    ensures forall r :: r in ix.store.words && !IsRef(mesh, r) ==> ix'.store.words[r] == ix.store.words[r]
    ensures forall r :: r in ix.store.words && r !in handled && StableClean(ix'.store.(words := ix.store.words), ix.renderPass, r) ==>
      ix'.store.words[r] == ix.store.words[r]
    ensures forall r :: r in handled && !(IsFlooded(ix.store.words[r]) && Label(ix.store.words[r]) == 0) ==>
      provider'[r] != 0
    ensures forall r :: r in ix.store.words && r !in handled && ix'.store.words[r] != ix.store.words[r] ==>
      IsFlooded(ix'.store.words[r])
    ensures mints <= floodPasses
    ensures ix'.store.nextFlag == LabelCursor.Advance(ix.store.nextFlag, mints)
  {
    var st := ix.store;
    var renderPass := ix.renderPass;
    if !ix.initialUpdate {
      // mark the changed tiles dirty; on the initial update every tile is walked instead
      st := StampTiles(st, changed, renderPass);
    }
    var stamped := st;
    var working := WorkingTiles(mesh, ix, changed);
    provider' := provider;
    handled := [];
    floodPasses := 0;
    mints := 0;
    for i := 0 to |working|
      invariant Progress(mesh, stamped, renderPass, working, ix.store.nextFlag, provider,
                         st, provider', handled, mints, floodPasses)
      invariant handled == TilesPolys(mesh, working[..i])
      invariant LabelsKept(stamped, renderPass, st, provider', handled)
    {
      var tileIndex := working[i];
      st, provider', handled, mints, floodPasses :=
        HandleTile(mesh, stamped, renderPass, working, ix.store.nextFlag, provider,
                   st, provider', handled, mints, floodPasses, tileIndex);
      TilesPolysStep(mesh, working, i);
    }
    assert working[..|working|] == working;
    ix' := Indexer(st, false, renderPass + 1);
    forall r | r in ix.store.words && r !in handled && StableClean(ix'.store.(words := ix.store.words), ix.renderPass, r)
      ensures ix'.store.words[r] == ix.store.words[r]
    {
      if IsRef(mesh, r) {
        assert r.tile !in working;
        assert StableClean(stamped, renderPass, r);
      }
    }
  }

  /**
   * The first regeneration after a store is bound: it walks every tile, so
   * every polygon of the mesh is committed whatever the changed list holds,
   * and no tile is stamped.
   */
  method FirstRegeneration(mesh: Mesh, store: Store, renderPass: bv8, provider: map<PolyRef, bv16>, changed: seq<nat>)
    returns (ix': Indexer, provider': map<PolyRef, bv16>, handled: seq<PolyRef>)
    requires Fits(mesh, store)
    ensures forall r :: r in handled <==> IsRef(mesh, r)
    ensures forall r :: r in handled ==> r in provider' && !HasTransient(provider'[r])
    ensures ix'.store.passes == store.passes
    ensures !ix'.initialUpdate && ix'.renderPass == renderPass + 1
  {
    var ix := Attach(store, renderPass);
    var floodPasses, mints;
    ix', provider', handled, floodPasses, mints := OnRegenerateTiles(mesh, ix, provider, changed);
    assert |ix'.store.passes| == |store.passes|;
  }
}

=== FILE: flagstore.dfy ===
/**
 * Per-polygon label words and per-tile render-pass stamps (the `NavmeshFlags`
 * store), together with the label cursor the store owns.
 */
module FlagStore {
  import opened IslandConsts
  import opened NavMesh

  /**
   * `words` holds one 16-bit word per slot of every tile whose word array
   * exists; `passes` holds the last render pass of every tile; `nextFlag` is
   * the label cursor; `attached` records that the store was bound to a mesh,
   * which only a fully allocated initialisation does.
   */
  datatype Store = Store(
    ntiles: nat,
    words: map<PolyRef, bv16>,
    passes: seq<bv8>,
    nextFlag: bv8,
    attached: bool)
  {
    /** A completely initialised store: every slot of every tile is present. */
    ghost predicate Valid() {
      && attached
      && |passes| == ntiles
      && (forall q :: q in words <==> q.tile < ntiles && q.poly < MAX_POLY_PER_TILE)
    }
  }

  datatype InitResult = InitResult(ok: bool, store: Store)

  function Min(a: nat, b: nat): (m: nat) {
    if a < b then a else b
  }

  /**
   * Initialise the store for a mesh of `maxTiles` tiles. Allocation is a
   * parameter: `tableAllocated` says whether the tile table was obtained and
   * `arraysAllocated` how many per-tile word arrays were obtained before the
   * first failure. Only the first half of each word array is cleared, so slots
   * 64..127 keep whatever `residue` says the fresh memory held.
   */
  function Init(maxTiles: nat, tableAllocated: bool, arraysAllocated: nat, residue: PolyRef -> bv16): (r: InitResult)
    ensures r.ok <==> maxTiles == 0
    ensures r.store.ntiles == Min(maxTiles, PURGE_MAX_TILES) && r.store.ntiles <= PURGE_MAX_TILES
    ensures r.store.nextFlag == POLYFLAGS_START
    ensures r.store.attached <==> maxTiles > 0 && tableAllocated && arraysAllocated >= r.store.ntiles
    ensures r.store.attached ==> r.store.Valid()
    ensures maxTiles > 0 && tableAllocated ==>
      |r.store.passes| == r.store.ntiles && forall t :: 0 <= t < |r.store.passes| ==> r.store.passes[t] == 0
    ensures !(maxTiles > 0 && tableAllocated) ==> r.store.passes == [] && r.store.words == map[]
    ensures forall q :: q in r.store.words <==>
      maxTiles > 0 && tableAllocated && q.tile < r.store.ntiles && q.tile < arraysAllocated && q.poly < MAX_POLY_PER_TILE
    ensures forall q :: q in r.store.words ==>
      r.store.words[q] == if q.poly < MAX_POLY_PER_TILE / 2 then 0 else residue(q)
  {
    var n := Min(maxTiles, PURGE_MAX_TILES);
    if maxTiles == 0 then
      InitResult(true, Store(0, map[], [], POLYFLAGS_START, false))
    else if !tableAllocated then
      InitResult(false, Store(n, map[], [], POLYFLAGS_START, false))
    else
      // memset clears MAX_POLY_PER_TILE bytes of a uint16 array: half of its words
      var words := map t: nat, p: nat | t < n && t < arraysAllocated && p < MAX_POLY_PER_TILE
        :: PolyRef(t, p) := if p < MAX_POLY_PER_TILE / 2 then 0 else residue(PolyRef(t, p));
      var passes := seq(n, _ => 0 as bv8);
      // the result is false whether or not every array was obtained
      InitResult(false, Store(n, words, passes, POLYFLAGS_START, arraysAllocated >= n))
  }

  /** Initialisation reports failure for every non-empty mesh, even when all memory was obtained. */
  lemma InitReportsFailure(maxTiles: nat, residue: PolyRef -> bv16)
    requires maxTiles > 0
    ensures !Init(maxTiles, true, PURGE_MAX_TILES, residue).ok
    ensures Init(maxTiles, true, PURGE_MAX_TILES, residue).store.Valid()
  {
  }

  function GetFlags(s: Store, ref: PolyRef): (w: bv16)
    requires s.attached && ref in s.words
  {
    s.words[ref]
  }

  /** Overwrite one polygon's word; reading it back yields `w`, every other slot is kept. */
  function SetFlags(s: Store, ref: PolyRef, w: bv16): (s': Store)
    requires s.attached && ref in s.words
    ensures s'.attached && s'.words.Keys == s.words.Keys
    ensures GetFlags(s', ref) == w
    ensures forall q :: q in s.words && q != ref ==> GetFlags(s', q) == GetFlags(s, q)
    ensures s'.ntiles == s.ntiles && s'.passes == s.passes && s'.nextFlag == s.nextFlag
    ensures s.Valid() ==> s'.Valid()
  {
    s.(words := s.words[ref := w])
  }

  function GetLastRenderPassForTile(s: Store, tileIndex: nat): (pass: bv8)
    requires tileIndex < |s.passes|
  {
    s.passes[tileIndex]
  }

  /** Stamp one tile; reading it back yields `pass`, every other tile keeps its stamp. */
  function SetLastRenderPassForTile(s: Store, tileIndex: nat, pass: bv8): (s': Store)
    requires tileIndex < |s.passes|
    ensures |s'.passes| == |s.passes|
    ensures GetLastRenderPassForTile(s', tileIndex) == pass
    ensures forall t :: 0 <= t < |s.passes| && t != tileIndex ==>
      GetLastRenderPassForTile(s', t) == GetLastRenderPassForTile(s, t)
    ensures s'.words == s.words && s'.ntiles == s.ntiles && s'.nextFlag == s.nextFlag && s'.attached == s.attached
    ensures s.Valid() ==> s'.Valid()
  {
    s.(passes := s.passes[tileIndex := pass])
  }

  /**
   * `GetFlags` reads back the word the last `SetFlags` of that polygon
   * wrote; stamping a tile leaves it alone.
   */
  lemma FlagsReadBack(s: Store, ref: PolyRef, w: bv16, q: PolyRef, tileIndex: nat, pass: bv8)
    requires s.attached && ref in s.words && q in s.words && tileIndex < |s.passes|
    ensures GetFlags(SetFlags(s, ref, w), q) == if q == ref then w else GetFlags(s, q)
    ensures GetFlags(SetLastRenderPassForTile(s, tileIndex, pass), q) == GetFlags(s, q)
  {
  }

  /**
   * `GetLastRenderPassForTile` reads back the stamp the last
   * `SetLastRenderPassForTile` of that tile wrote; setting a word leaves it
   * alone.
   */
  lemma PassReadBack(s: Store, tileIndex: nat, pass: bv8, t: nat, ref: PolyRef, w: bv16)
    requires tileIndex < |s.passes| && t < |s.passes| && s.attached && ref in s.words
    ensures GetLastRenderPassForTile(SetLastRenderPassForTile(s, tileIndex, pass), t)
      == if t == tileIndex then pass else GetLastRenderPassForTile(s, t)
    ensures GetLastRenderPassForTile(SetFlags(s, ref, w), t) == GetLastRenderPassForTile(s, t)
  {
  }

  /** The store can hold every polygon of the mesh. */
  ghost predicate Fits(mesh: Mesh, s: Store) {
    s.Valid() && WellFormed(mesh) && |mesh.tiles| <= s.ntiles
  }

  lemma RefInStore(mesh: Mesh, s: Store, r: PolyRef)
    requires Fits(mesh, s) && IsRef(mesh, r)
    ensures r in s.words && r.tile < |s.passes|
  {
  }
}

=== FILE: flood.dfy ===
/**
 * One bounded flood: a depth-first traversal from a start polygon that
 * decides one island label and stamps it, with the FLOODED marker, on every
 * polygon it reaches without entering stable territory.
 */
module Flood {
  import opened IslandConsts
  import opened NavMesh
  import opened FlagStore
  import LabelCursor

  /**
   * Where the flood's label came from: minted from the cursor, or read from
   * the stable polygon `from`, met over a link of the claimed polygon `via`.
   */
  datatype Origin = Minted | Adopted(from: PolyRef, via: PolyRef)

  /** A polygon with a plain non-zero label in a tile that was not stamped with this pass. */
  predicate StableClean(s: Store, renderPass: bv8, r: PolyRef) {
    && r in s.words && r.tile < |s.passes|
    && s.words[r] != 0 && !HasTransient(s.words[r])
    && s.passes[r.tile] != renderPass
  }

  /** A polygon a flood does not enter: it carries a marker, or it is stable and clean. */
  predicate Blocked(s: Store, renderPass: bv8, r: PolyRef) {
    r in s.words && (HasTransient(s.words[r]) || StableClean(s, renderPass, r))
  }

  /** A polygon a flood may claim: no marker, and either no label or a tile stamped with this pass. */
  predicate Eligible(s: Store, renderPass: bv8, r: PolyRef) {
    && r in s.words && r.tile < |s.passes|
    && !HasTransient(s.words[r])
    && (s.words[r] == 0 || s.passes[r.tile] == renderPass)
  }

  /** Over the slots of stamped tiles, a flood enters exactly the polygons it is not blocked by. */
  lemma BlockedIffNotEligible(s: Store, renderPass: bv8, r: PolyRef)
    requires r in s.words && r.tile < |s.passes|
    ensures Blocked(s, renderPass, r) <==> !Eligible(s, renderPass, r)
  {
  }

  /** Every neighbour of `r` was claimed (is in `claimed`) or is blocked in the store `s`. */
  ghost predicate Closed(mesh: Mesh, s: Store, renderPass: bv8, claimed: set<PolyRef>, r: PolyRef) {
    && IsRef(mesh, r)
    && forall i :: 0 <= i < |Links(mesh, r)| && Links(mesh, r)[i].Link? ==>
         Links(mesh, r)[i].to in claimed || Blocked(s, renderPass, Links(mesh, r)[i].to)
  }

  /** Every polygon of `claimed` is closed: the claimed set is closed under links, up to blocked polygons. */
  ghost predicate AllClosed(mesh: Mesh, s: Store, renderPass: bv8, claimed: set<PolyRef>) {
    forall r :: r in claimed ==> Closed(mesh, s, renderPass, claimed, r)
  }

  /** The polygons listed in `xs`. */
  ghost function Members(xs: seq<PolyRef>): (m: set<PolyRef>) {
    set r | r in xs
  }

  ghost predicate Distinct(xs: seq<PolyRef>) {
    forall i, j :: 0 <= i < j < |xs| ==> xs[i] != xs[j]
  }

  lemma ClosedGrows(mesh: Mesh, s: Store, renderPass: bv8, a: set<PolyRef>, b: set<PolyRef>, r: PolyRef)
    requires a <= b && Closed(mesh, s, renderPass, a, r)
    ensures Closed(mesh, s, renderPass, b, r)
  {
  }

  /** A set no larger than a superset of it. */
  lemma SubsetCard(a: set<PolyRef>, b: set<PolyRef>)
    requires a <= b
    ensures |a| <= |b|
  {
    assert b == a + (b - a);
  }

  /** A list without repetitions has as many members as elements. */
  lemma {:induction false} DistinctCard(xs: seq<PolyRef>)
    requires Distinct(xs)
    ensures |set r | r in xs| == |xs|
  {
    if xs != [] {
      var init := xs[..|xs| - 1];
      var last := xs[|xs| - 1];
      assert xs == init + [last];
      DistinctCard(init);
      assert (set r | r in xs) == (set r | r in init) + {last};
      assert last !in init;
    }
  }

  lemma DistinctSnoc(xs: seq<PolyRef>, x: PolyRef)
    requires Distinct(xs) && x !in xs
    ensures Distinct(xs + [x])
  {
  }

  /**
   * A polygon whose label a flood from `start` adopts on sight: stable in a
   * clean tile with a non-zero low byte. The start itself never qualifies,
   * because the flood overwrites its word before looking at any link.
   */
  predicate Labelled(s: Store, renderPass: bv8, start: PolyRef, r: PolyRef) {
    r != start && StableClean(s, renderPass, r) && Label(s.words[r]) != 0
  }

  /** None of the first `n` links leads to a polygon whose label would be adopted. */
  ghost predicate LinksUnlabelled(s: Store, renderPass: bv8, start: PolyRef, links: seq<Link>, n: nat)
    requires n <= |links|
  {
    forall k :: 0 <= k < n && links[k].Link? ==> !Labelled(s, renderPass, start, links[k].to)
  }

  /** No link of polygon `r` leads to a polygon whose label would be adopted. */
  ghost predicate Unlabelled(mesh: Mesh, s: Store, renderPass: bv8, start: PolyRef, r: PolyRef) {
    IsRef(mesh, r) && LinksUnlabelled(s, renderPass, start, Links(mesh, r), |Links(mesh, r)|)
  }

  /** No polygon of `claimed` has a link to a polygon whose label would be adopted. */
  ghost predicate AllUnlabelled(mesh: Mesh, s: Store, renderPass: bv8, start: PolyRef, claimed: set<PolyRef>) {
    forall r :: r in claimed ==> Unlabelled(mesh, s, renderPass, start, r)
  }

  lemma UnlabelledGrows(s: Store, renderPass: bv8, start: PolyRef, links: seq<Link>, i: nat)
    requires i < |links| && LinksUnlabelled(s, renderPass, start, links, i)
    requires links[i].Link? ==> !Labelled(s, renderPass, start, links[i].to)
    ensures LinksUnlabelled(s, renderPass, start, links, i + 1)
  {
  }

  /**
   * The claim tree: `parent[k]` is the polygon over whose link `order[k]`
   * was claimed, and it was claimed earlier. The root `order[0]` has no link
   * behind it.
   */
  ghost predicate Tree(mesh: Mesh, order: seq<PolyRef>, parent: seq<PolyRef>) {
    && |parent| == |order|
    && forall k :: 0 < k < |order| ==>
         parent[k] in order[..k] && IsRef(mesh, parent[k]) && Link(order[k]) in Links(mesh, parent[k])
  }

  lemma TreeSnoc(mesh: Mesh, order: seq<PolyRef>, parent: seq<PolyRef>, x: PolyRef, via: PolyRef)
    requires Tree(mesh, order, parent) && via in order
    requires IsRef(mesh, via) && Link(x) in Links(mesh, via)
    ensures Tree(mesh, order + [x], parent + [via])
  {
    var o, q := order + [x], parent + [via];
    forall k | 0 < k < |o|
      ensures q[k] in o[..k] && IsRef(mesh, q[k]) && Link(o[k]) in Links(mesh, q[k])
    {
      if k < |order| {
        assert o[..k] == order[..k] && q[k] == parent[k] && o[k] == order[k];
      } else {
        assert o[..k] == order;
      }
    }
  }

  /** A chain of polygons, each reached from the one before over one of its links. */
  ghost predicate LinkPath(mesh: Mesh, p: seq<PolyRef>)
    decreases |p|
  {
    || |p| <= 1
    || (&& IsRef(mesh, p[|p| - 2]) && Link(p[|p| - 1]) in Links(mesh, p[|p| - 2])
        && LinkPath(mesh, p[..|p| - 1]))
  }

  /** `r` is reachable from `from` over a chain of links. */
  ghost predicate Reachable(mesh: Mesh, from: PolyRef, r: PolyRef) {
    exists p :: LinkPath(mesh, p) && |p| > 0 && p[0] == from && p[|p| - 1] == r
  }

  /**
   * `island` is the label of a stable polygon of a clean tile that one of
   * the links of a polygon in `claimed` leads to.
   */
  ghost predicate LinkedLabel(mesh: Mesh, s: Store, renderPass: bv8, claimed: seq<PolyRef>, island: bv16) {
    exists f, v :: && v in claimed && IsRef(mesh, v) && Link(f) in Links(mesh, v)
                   && IsRef(mesh, f) && StableClean(s, renderPass, f) && island == Label(s.words[f])
  }

  /** The claim tree read back from `order[k]` to the root: a link path from `order[0]` to `order[k]`. */
  ghost function PathTo(mesh: Mesh, order: seq<PolyRef>, parent: seq<PolyRef>, k: nat): (p: seq<PolyRef>)
    requires Tree(mesh, order, parent) && k < |order|
    ensures |p| > 0 && p[0] == order[0] && p[|p| - 1] == order[k]
    ensures LinkPath(mesh, p)
    decreases k
  {
    if k == 0 then [order[0]]
    else
      assert parent[k] in order[..k];
      var j :| 0 <= j < k && order[j] == parent[k];
      var p := PathTo(mesh, order, parent, j);
      assert (p + [order[k]])[..|p|] == p;
      p + [order[k]]
  }

  /** The traversal state of one flood: the store, the label decided so far and the work lists. */
  datatype Walk = Walk(
    st: Store,
    flag: bv16,
    stamp: bv16,
    origin: Origin,
    open: seq<PolyRef>,
    pending: seq<PolyRef>,
    direct: seq<PolyRef>,
    parent: seq<PolyRef>,
    peak: nat)

  /** The polygons this flood has claimed so far. */
  ghost function Claimed(w: Walk): (c: set<PolyRef>) {
    set r | r in w.pending + w.direct
  }

  /**
   * Termination measure of a walk: polygons not yet claimed count twice,
   * stacked ones once. It is non-negative under the walk invariant.
   */
  function Measure(s: Store, w: Walk): (m: int) {
    2 * (|s.words| - |w.pending| - |w.direct|) + |w.open|
  }

  /** The store of a walk differs from the initial store `s` only in its words. */
  ghost predicate WalkStore(s: Store, w: Walk) {
    && w.st.attached
    && w.st.ntiles == s.ntiles && w.st.passes == s.passes && w.st.nextFlag == s.nextFlag
    && w.st.words.Keys == s.words.Keys
  }

  /**
   * The claimed polygons: `start` first, each claimed once, pending ones
   * marked UNASSIGNED, direct ones stamped, all of them eligible in `s`, and
   * no other word changed.
   */
  ghost predicate WalkLists(mesh: Mesh, s: Store, renderPass: bv8, start: PolyRef, w: Walk) {
    && |w.pending| > 0 && w.pending[0] == start
    && Distinct(w.pending) && Distinct(w.direct)
    && (forall r :: r in w.pending ==> r !in w.direct)
    && (forall r :: r in w.pending ==> IsRef(mesh, r) && r in w.st.words && w.st.words[r] == UNASSIGNED)
    && (forall r :: r in w.direct ==> IsRef(mesh, r) && r in w.st.words && w.st.words[r] == w.stamp)
    && (forall r :: r in s.words && r !in w.pending && r !in w.direct ==> r in w.st.words && w.st.words[r] == s.words[r])
    && (forall r :: (r in w.pending || r in w.direct) && r != start ==> Eligible(s, renderPass, r))
  }

  /** The label decided so far: none (and nothing stamped directly yet) or one adopted from a stable polygon. */
  ghost predicate WalkLabel(mesh: Mesh, s: Store, renderPass: bv8, w: Walk) {
    && w.flag <= LABEL_MASK
    && w.stamp == FloodedWord(w.flag)
    && (w.flag == 0 ==> w.direct == [])
    && (w.flag != 0 <==> w.origin.Adopted?)
    && (w.origin.Adopted? ==>
          && IsRef(mesh, w.origin.from) && StableClean(s, renderPass, w.origin.from)
          && w.flag == Label(s.words[w.origin.from])
          && (w.origin.via in w.pending || w.origin.via in w.direct)
          && IsRef(mesh, w.origin.via) && Link(w.origin.from) in Links(mesh, w.origin.via))
  }

  /**
   * The open stack holds claimed polygons only, each once, and never exceeds
   * its capacity; `peak` is at least as deep as the stack is now.
   */
  ghost predicate WalkStack(w: Walk) {
    && (forall r :: r in w.open ==> r in w.pending || r in w.direct)
    && Distinct(w.open)
    && |w.open| <= w.peak <= OPEN_MAX && 1 <= w.peak
  }

  /** What holds of a flood from `start` over the initial store `s` between two steps. */
  ghost predicate WalkInv(mesh: Mesh, s: Store, renderPass: bv8, start: PolyRef, w: Walk) {
    && Fits(mesh, s)
    && WalkStore(s, w)
    && WalkLists(mesh, s, renderPass, start, w)
    && WalkLabel(mesh, s, renderPass, w)
    && WalkStack(w)
    && Tree(mesh, w.pending + w.direct, w.parent)
  }

  /** The claimed polygons are distinct keys of the store, so the measure is never negative. */
  lemma MeasureBounded(mesh: Mesh, s: Store, renderPass: bv8, start: PolyRef, w: Walk)
    requires WalkInv(mesh, s, renderPass, start, w)
    ensures Measure(s, w) >= 0
  {
    var all := w.pending + w.direct;
    assert Distinct(all) by {
      forall i, j | 0 <= i < j < |all| ensures all[i] != all[j] {
        if j >= |w.pending| && i < |w.pending| {
          assert all[i] in w.pending && all[j] in w.direct;
        }
      }
    }
    DistinctCard(all);
    assert Claimed(w) <= s.words.Keys;
    SubsetCard(Claimed(w), s.words.Keys);
  }

  /** Every claimed polygon carries a marker in the walk's store. */
  lemma ClaimedMarked(mesh: Mesh, s: Store, renderPass: bv8, start: PolyRef, w: Walk)
    requires WalkInv(mesh, s, renderPass, start, w)
    ensures forall r :: r in w.pending ==> HasTransient(w.st.words[r])
    ensures forall r :: r in w.direct ==> HasTransient(w.st.words[r])
  {
  }

  /** Every polygon of a claim tree is reachable from its root over links. */
  lemma TreeReachable(mesh: Mesh, order: seq<PolyRef>, parent: seq<PolyRef>, r: PolyRef)
    requires Tree(mesh, order, parent) && r in order
    ensures Reachable(mesh, order[0], r)
  {
    var k :| 0 <= k < |order| && order[k] == r;
    var p := PathTo(mesh, order, parent, k);
    assert LinkPath(mesh, p) && |p| > 0 && p[0] == order[0] && p[|p| - 1] == r;
  }

  /** A polygon whose label would be adopted was never claimed, so the walk still holds its original word. */
  lemma LabelledUnclaimed(mesh: Mesh, s: Store, renderPass: bv8, start: PolyRef, w: Walk, r: PolyRef)
    requires WalkInv(mesh, s, renderPass, start, w)
    ensures Labelled(s, renderPass, start, r) ==>
      r !in w.pending && r !in w.direct && r in w.st.words && w.st.words[r] == s.words[r]
  {
  }

  /**
   * Claim `nei`, reached over a link of `via`: queue it as pending while no
   * label is known, otherwise stamp it at once.
   */
  function Claim(w: Walk, nei: PolyRef, via: PolyRef): (w': Walk)
    requires w.st.attached && nei in w.st.words
    ensures Claimed(w') == Claimed(w) + {nei}
    ensures w'.st.words.Keys == w.st.words.Keys
    ensures forall r :: r in w.st.words && r != nei ==> w'.st.words[r] == w.st.words[r]
    ensures |w'.parent| == |w.parent| + 1 && w'.parent[|w.parent|] == via
    ensures w'.open == w.open && w'.flag == w.flag && w'.origin == w.origin
  {
    if w.flag == 0 then
      w.(pending := w.pending + [nei], st := SetFlags(w.st, nei, UNASSIGNED), parent := w.parent + [via])
    else
      w.(direct := w.direct + [nei], st := SetFlags(w.st, nei, w.stamp), parent := w.parent + [via])
  }

  lemma ClaimedByClaim(w: Walk, nei: PolyRef, via: PolyRef)
    requires w.st.attached && nei in w.st.words && (w.flag == 0 ==> w.direct == [])
    ensures Claim(w, nei, via).pending + Claim(w, nei, via).direct == w.pending + w.direct + [nei]
    ensures Claimed(Claim(w, nei, via)) == Claimed(w) + {nei}
  {
    var w' := Claim(w, nei, via);
    assert w'.pending + w'.direct == w.pending + w.direct + [nei];
  }

  lemma ClaimPendingKeepsLists(mesh: Mesh, s: Store, renderPass: bv8, start: PolyRef, w: Walk, nei: PolyRef, via: PolyRef)
    requires WalkStore(s, w) && WalkLists(mesh, s, renderPass, start, w) && w.flag == 0
    requires IsRef(mesh, nei) && nei in s.words && nei !in w.pending && nei !in w.direct
    requires Eligible(s, renderPass, nei)
    ensures WalkStore(s, Claim(w, nei, via))
    ensures WalkLists(mesh, s, renderPass, start, Claim(w, nei, via))
  {
    DistinctSnoc(w.pending, nei);
    var w' := Claim(w, nei, via);
    assert w'.pending == w.pending + [nei] && w'.direct == w.direct;
    assert w'.st.words == w.st.words[nei := UNASSIGNED];
  }

  lemma ClaimDirectKeepsLists(mesh: Mesh, s: Store, renderPass: bv8, start: PolyRef, w: Walk, nei: PolyRef, via: PolyRef)
    requires WalkStore(s, w) && WalkLists(mesh, s, renderPass, start, w) && w.flag != 0
    requires IsRef(mesh, nei) && nei in s.words && nei !in w.pending && nei !in w.direct
    requires Eligible(s, renderPass, nei)
    ensures WalkStore(s, Claim(w, nei, via))
    ensures WalkLists(mesh, s, renderPass, start, Claim(w, nei, via))
  {
    DistinctSnoc(w.direct, nei);
    var w' := Claim(w, nei, via);
    assert w'.direct == w.direct + [nei] && w'.pending == w.pending;
    assert w'.st.words == w.st.words[nei := w.stamp];
  }

  lemma ClaimKeepsInv(mesh: Mesh, s: Store, renderPass: bv8, start: PolyRef, w: Walk, nei: PolyRef, via: PolyRef)
    requires WalkInv(mesh, s, renderPass, start, w) && IsRef(mesh, nei)
    requires nei !in w.pending && nei !in w.direct && Eligible(s, renderPass, nei)
    requires (via in w.pending || via in w.direct) && IsRef(mesh, via) && Link(nei) in Links(mesh, via)
    ensures w.st.attached && nei in w.st.words
    ensures WalkInv(mesh, s, renderPass, start, Claim(w, nei, via))
    ensures Claimed(Claim(w, nei, via)) == Claimed(w) + {nei}
    ensures Claim(w, nei, via).pending + Claim(w, nei, via).direct == w.pending + w.direct + [nei]
    ensures Measure(s, Claim(w, nei, via)) + 2 == Measure(s, w)
  {
    RefInStore(mesh, s, nei);
    if w.flag == 0 {
      ClaimPendingKeepsLists(mesh, s, renderPass, start, w, nei, via);
    } else {
      ClaimDirectKeepsLists(mesh, s, renderPass, start, w, nei, via);
    }
    ClaimedByClaim(w, nei, via);
    TreeSnoc(mesh, w.pending + w.direct, w.parent, nei, via);
  }

  /** Take the label of the stable polygon `nei`, met over a link of `via`, as the label of this flood. */
  function Adopt(w: Walk, nei: PolyRef, via: PolyRef, island: bv16): (w': Walk) {
    w.(flag := island, stamp := island | FLOODED, origin := Adopted(nei, via))
  }

  lemma AdoptKeepsInv(mesh: Mesh, s: Store, renderPass: bv8, start: PolyRef, w: Walk, nei: PolyRef, via: PolyRef, island: bv16)
    requires WalkInv(mesh, s, renderPass, start, w) && w.flag == 0
    requires IsRef(mesh, nei) && StableClean(s, renderPass, nei)
    requires (via in w.pending || via in w.direct) && IsRef(mesh, via) && Link(nei) in Links(mesh, via)
    requires island == Label(s.words[nei]) && island != 0
    ensures WalkInv(mesh, s, renderPass, start, Adopt(w, nei, via, island))
    ensures Claimed(Adopt(w, nei, via, island)) == Claimed(w) && Adopt(w, nei, via, island).open == w.open
  {
    assert w.direct == [];
  }

  /** Push `nei` on the open stack, raising the recorded peak if needed. */
  function Push(w: Walk, nei: PolyRef): (w': Walk) {
    w.(open := w.open + [nei], peak := if |w.open| + 1 > w.peak then |w.open| + 1 else w.peak)
  }

  lemma PushKeepsInv(mesh: Mesh, s: Store, renderPass: bv8, start: PolyRef, w: Walk, nei: PolyRef)
    requires WalkInv(mesh, s, renderPass, start, w)
    requires (nei in w.pending || nei in w.direct) && nei !in w.open && |w.open| < OPEN_MAX
    ensures WalkInv(mesh, s, renderPass, start, Push(w, nei))
    ensures Claimed(Push(w, nei)) == Claimed(w) && Measure(s, Push(w, nei)) == Measure(s, w) + 1
    ensures w.peak <= Push(w, nei).peak
  {
    DistinctSnoc(w.open, nei);
  }

  /**
   * A full stack and one more claimed polygon not on it: a refused push
   * needs more than `OPEN_MAX` claimed polygons.
   */
  lemma CutCard(mesh: Mesh, s: Store, renderPass: bv8, start: PolyRef, w: Walk, nei: PolyRef)
    requires WalkInv(mesh, s, renderPass, start, w)
    requires |w.open| == OPEN_MAX && (nei in w.pending || nei in w.direct) && nei !in w.open
    ensures |Claimed(w)| > OPEN_MAX
  {
    DistinctCard(w.open);
    var stacked := set r | r in w.open;
    assert stacked + {nei} <= Claimed(w);
    SubsetCard(stacked + {nei}, Claimed(w));
  }

  /** Pop the top of the open stack. */
  function Pop(w: Walk): (w': Walk)
    requires |w.open| > 0
  {
    w.(open := w.open[..|w.open| - 1])
  }

  lemma PopKeepsInv(mesh: Mesh, s: Store, renderPass: bv8, start: PolyRef, w: Walk)
    requires WalkInv(mesh, s, renderPass, start, w) && |w.open| > 0
    ensures WalkInv(mesh, s, renderPass, start, Pop(w))
    ensures Claimed(Pop(w)) == Claimed(w) && Measure(s, Pop(w)) + 1 == Measure(s, w)
    ensures w.open == Pop(w).open + [w.open[|w.open| - 1]]
  {
    assert w.open == Pop(w).open + [w.open[|w.open| - 1]];
  }

  /**
   * Examine `nei`, the target of a link of the claimed polygon `ref` being
   * expanded. `stop` is set when `nei` was claimed but the open stack was
   * full, which ends the expansion of `ref`; it needs more than `OPEN_MAX`
   * claimed polygons.
   */
  method VisitLink(mesh: Mesh, s: Store, renderPass: bv8, start: PolyRef, w: Walk, ref: PolyRef, nei: PolyRef)
    returns (w': Walk, stop: bool)
    requires WalkInv(mesh, s, renderPass, start, w) && IsRef(mesh, nei)
    requires (ref in w.pending || ref in w.direct) && IsRef(mesh, ref) && Link(nei) in Links(mesh, ref)
    ensures WalkInv(mesh, s, renderPass, start, w')
    ensures ref in w'.pending || ref in w'.direct
    ensures w.flag == 0 && Labelled(s, renderPass, start, nei) ==> w'.origin == Adopted(nei, ref)
    ensures w.flag != 0 ==> w'.flag == w.flag && w'.origin == w.origin
    ensures w'.flag == 0 ==> !Labelled(s, renderPass, start, nei)
    ensures Claimed(w) <= Claimed(w')
    ensures nei in Claimed(w') || Blocked(s, renderPass, nei)
    ensures forall r :: r in w.open ==> r in w'.open
    ensures Claimed(w') <= Claimed(w) + {nei}
    ensures !stop && nei in Claimed(w') && nei !in Claimed(w) ==> nei in w'.open
    ensures stop ==> |w'.open| == OPEN_MAX && |Claimed(w')| > OPEN_MAX
    ensures w.peak <= w'.peak
    ensures Measure(s, w') <= Measure(s, w)
  {
    RefInStore(mesh, s, nei);
    ClaimedMarked(mesh, s, renderPass, start, w);
    LabelledUnclaimed(mesh, s, renderPass, start, w, nei);
    var cur := GetFlags(w.st, nei);
    if cur != 0 {
      if cur & UNASSIGNED != 0 || cur & FLOODED != 0 {
        // already claimed by this flood, or finished earlier in this driver call
        assert !Labelled(s, renderPass, start, nei);
        return w, false;
      }
      if GetLastRenderPassForTile(w.st, nei.tile) != renderPass {
        w' := MeetStable(mesh, s, renderPass, start, w, ref, nei);
        return w', false;
      }
    }
    assert !Labelled(s, renderPass, start, nei);
    w', stop := ClaimNeighbour(mesh, s, renderPass, start, w, ref, nei);
  }

  /**
   * Meet `nei`, a stable polygon of a clean tile: never enter it, but adopt
   * its label when this flood has none yet and the label is non-zero.
   */
  method MeetStable(mesh: Mesh, s: Store, renderPass: bv8, start: PolyRef, w: Walk, ref: PolyRef, nei: PolyRef)
    returns (w': Walk)
    requires WalkInv(mesh, s, renderPass, start, w) && IsRef(mesh, nei)
    requires (ref in w.pending || ref in w.direct) && IsRef(mesh, ref) && Link(nei) in Links(mesh, ref)
    requires nei in w.st.words && nei.tile < |w.st.passes|
    requires w.st.words[nei] != 0 && !HasTransient(w.st.words[nei]) && w.st.passes[nei.tile] != renderPass
    ensures WalkInv(mesh, s, renderPass, start, w')
    ensures w'.pending == w.pending && w'.direct == w.direct && w'.open == w.open && w'.peak == w.peak
    ensures StableClean(s, renderPass, nei)
    ensures w.flag == 0 && Labelled(s, renderPass, start, nei) ==> w'.origin == Adopted(nei, ref)
    ensures w.flag != 0 ==> w'.flag == w.flag && w'.origin == w.origin
    ensures w'.flag == 0 ==> !Labelled(s, renderPass, start, nei)
  {
    ClaimedMarked(mesh, s, renderPass, start, w);
    var cur := GetFlags(w.st, nei);
    assert nei !in w.pending && nei !in w.direct && cur == s.words[nei];
    if w.flag == 0 && cur & LABEL_MASK != 0 {
      AdoptKeepsInv(mesh, s, renderPass, start, w, nei, ref, cur & LABEL_MASK);
      return Adopt(w, nei, ref, cur & LABEL_MASK);
    }
    return w;
  }

  /** Claim the eligible neighbour `nei` of `ref` and push it, unless the open stack is full. */
  method ClaimNeighbour(mesh: Mesh, s: Store, renderPass: bv8, start: PolyRef, w: Walk, ref: PolyRef, nei: PolyRef)
    returns (w': Walk, stop: bool)
    requires WalkInv(mesh, s, renderPass, start, w) && IsRef(mesh, nei)
    requires (ref in w.pending || ref in w.direct) && IsRef(mesh, ref) && Link(nei) in Links(mesh, ref)
    requires nei !in w.pending && nei !in w.direct && Eligible(s, renderPass, nei)
    ensures WalkInv(mesh, s, renderPass, start, w')
    ensures ref in w'.pending || ref in w'.direct
    ensures w'.flag == w.flag && w'.origin == w.origin
    ensures Claimed(w') == Claimed(w) + {nei}
    ensures forall r :: r in w.open ==> r in w'.open
    ensures stop <==> |w.open| == OPEN_MAX
    ensures !stop ==> nei in w'.open
    ensures stop ==> |w'.open| == OPEN_MAX && |Claimed(w')| > OPEN_MAX
    ensures w.peak <= w'.peak
    ensures Measure(s, w') < Measure(s, w)
  {
    ClaimKeepsInv(mesh, s, renderPass, start, w, nei, ref);
    var claimed := Claim(w, nei, ref);
    assert nei !in claimed.open;
    if |w.open| == OPEN_MAX {
      CutCard(mesh, s, renderPass, start, claimed, nei);
      return claimed, true;
    }
    PushKeepsInv(mesh, s, renderPass, start, claimed, nei);
    return Push(claimed, nei), false;
  }

  /** The first `n` links each lead to a claimed polygon, to a blocked one, or nowhere. */
  ghost predicate LinksHandled(s: Store, renderPass: bv8, claimed: set<PolyRef>, links: seq<Link>, n: nat)
    requires n <= |links|
  {
    forall k :: 0 <= k < n && links[k].Link? ==> links[k].to in claimed || Blocked(s, renderPass, links[k].to)
  }

  lemma HandledGrows(s: Store, renderPass: bv8, a: set<PolyRef>, b: set<PolyRef>, links: seq<Link>, i: nat)
    requires a <= b && i < |links| && LinksHandled(s, renderPass, a, links, i)
    requires links[i].Link? ==> links[i].to in b || Blocked(s, renderPass, links[i].to)
    ensures LinksHandled(s, renderPass, b, links, i + 1)
  {
  }

  /** Polygons claimed since `c0` stay stacked across a link visit that did not stop. */
  lemma StackedStep(c0: set<PolyRef>, c1: set<PolyRef>, c2: set<PolyRef>, o1: seq<PolyRef>, o2: seq<PolyRef>, nei: PolyRef)
    requires c0 <= c1 <= c2 <= c1 + {nei}
    requires forall r :: r in c1 && r !in c0 ==> r in o1
    requires forall r :: r in o1 ==> r in o2
    requires nei in c2 && nei !in c1 ==> nei in o2
    ensures c0 <= c2 && forall r :: r in c2 && r !in c0 ==> r in o2
  {
  }

  /**
   * Walk the link list of the popped polygon `ref`; `truncated` reports that
   * a claimed neighbour could not be pushed and the rest of the list was skipped.
   */
  method ExpandPolygon(mesh: Mesh, s: Store, renderPass: bv8, start: PolyRef, w: Walk, ref: PolyRef)
    returns (w': Walk, truncated: bool)
    requires WalkInv(mesh, s, renderPass, start, w) && IsRef(mesh, ref)
    requires ref in w.pending || ref in w.direct
    ensures WalkInv(mesh, s, renderPass, start, w')
    ensures w.flag != 0 ==> w'.flag == w.flag && w'.origin == w.origin
    ensures !truncated && w'.flag == 0 ==> Unlabelled(mesh, s, renderPass, start, ref)
    ensures Claimed(w) <= Claimed(w')
    ensures forall r :: r in w.open ==> r in w'.open
    ensures Measure(s, w') <= Measure(s, w)
    ensures !truncated ==> LinksHandled(s, renderPass, Claimed(w'), Links(mesh, ref), |Links(mesh, ref)|)
    ensures !truncated ==> forall r :: r in Claimed(w') && r !in Claimed(w) ==> r in w'.open
    ensures truncated ==> |w'.open| == OPEN_MAX && |Claimed(w')| > OPEN_MAX
    ensures w.peak <= w'.peak
  {
    var links := Links(mesh, ref);
    w' := w;
    truncated := false;
    var i := 0;
    while i < |links|
      invariant 0 <= i <= |links|
      invariant WalkInv(mesh, s, renderPass, start, w')
      invariant Claimed(w) <= Claimed(w')
      invariant forall r :: r in w.open ==> r in w'.open
      invariant Measure(s, w') <= Measure(s, w)
      invariant LinksHandled(s, renderPass, Claimed(w'), links, i)
      invariant forall r :: r in Claimed(w') && r !in Claimed(w) ==> r in w'.open
      invariant ref in w'.pending || ref in w'.direct
      invariant w.flag != 0 ==> w'.flag == w.flag && w'.origin == w.origin
      invariant w'.flag == 0 ==> LinksUnlabelled(s, renderPass, start, links, i)
      invariant w.peak <= w'.peak
    {
      if links[i].Link? {
        ghost var before := Claimed(w');
        ghost var beforeOpen := w'.open;
        assert Link(links[i].to) in Links(mesh, ref);
        var stop;
        w', stop := VisitLink(mesh, s, renderPass, start, w', ref, links[i].to);
        if stop {
          truncated := true;
          break;
        }
        StackedStep(Claimed(w), before, Claimed(w'), beforeOpen, w'.open, links[i].to);
        HandledGrows(s, renderPass, before, Claimed(w'), links, i);
      } else {
        HandledGrows(s, renderPass, Claimed(w'), Claimed(w'), links, i);
      }
      if w'.flag == 0 {
        UnlabelledGrows(s, renderPass, start, links, i);
      }
      i := i + 1;
    }
    assert Links(mesh, ref) == links;
  }

  /** One pop-and-expand step keeps every claimed polygon either stacked or closed. */
  lemma ClosureStep(mesh: Mesh, s: Store, renderPass: bv8, a: set<PolyRef>, b: set<PolyRef>,
                    openA: seq<PolyRef>, openB: seq<PolyRef>, ref: PolyRef)
    requires a <= b
    requires forall r :: r in a ==> r in openA + [ref] || Closed(mesh, s, renderPass, a, r)
    requires forall r :: r in openA ==> r in openB
    requires Closed(mesh, s, renderPass, b, ref)
    requires forall r :: r in b && r !in a ==> r in openB
    ensures forall r :: r in b ==> r in openB || Closed(mesh, s, renderPass, b, r)
  {
    forall r | r in a && Closed(mesh, s, renderPass, a, r)
      ensures Closed(mesh, s, renderPass, b, r)
    {
      ClosedGrows(mesh, s, renderPass, a, b, r);
    }
  }

  /** One pop-and-expand step of a walk whose label is still unknown keeps every claimed polygon stacked or unlabelled. */
  lemma UnlabelledStep(mesh: Mesh, s: Store, renderPass: bv8, start: PolyRef, a: set<PolyRef>, b: set<PolyRef>,
                       openA: seq<PolyRef>, openB: seq<PolyRef>, ref: PolyRef)
    requires a <= b
    requires forall r :: r in a ==> r in openA + [ref] || Unlabelled(mesh, s, renderPass, start, r)
    requires forall r :: r in openA ==> r in openB
    requires Unlabelled(mesh, s, renderPass, start, ref)
    requires forall r :: r in b && r !in a ==> r in openB
    ensures forall r :: r in b ==> r in openB || Unlabelled(mesh, s, renderPass, start, r)
  {
  }

  /** Stamp every pending polygon with the decided label and the FLOODED marker. */
  method SettlePending(st: Store, pending: seq<PolyRef>, island: bv16) returns (st': Store)
    requires st.Valid() && island <= LABEL_MASK && forall r :: r in pending ==> r in st.words
    ensures st'.Valid() && st'.ntiles == st.ntiles && st'.passes == st.passes && st'.nextFlag == st.nextFlag
    ensures st'.words.Keys == st.words.Keys
    ensures forall r :: r in pending ==> st'.words[r] == FloodedWord(island)
    ensures forall r :: r in st.words && r !in pending ==> st'.words[r] == st.words[r]
  {
    st' := st;
    var k := 0;
    while k < |pending|
      invariant 0 <= k <= |pending|
      invariant st'.Valid() && st'.ntiles == st.ntiles && st'.passes == st.passes && st'.nextFlag == st.nextFlag
      invariant st'.words.Keys == st.words.Keys
      invariant forall r :: r in st.words && r !in pending[..k] ==> st'.words[r] == st.words[r]
      invariant forall r :: r in pending[..k] ==> st'.words[r] == FloodedWord(island)
    {
      st' := SetFlags(st', pending[k], island | FLOODED);
      assert pending[..k + 1] == pending[..k] + [pending[k]];
      k := k + 1;
    }
    assert pending[..k] == pending;
  }

  /** Run the traversal until the open stack is empty. */
  method Traverse(mesh: Mesh, s: Store, renderPass: bv8, start: PolyRef) returns (w: Walk, truncated: bool)
    requires Fits(mesh, s) && IsRef(mesh, start)
    ensures WalkInv(mesh, s, renderPass, start, w)
    ensures !truncated ==> AllClosed(mesh, s, renderPass, Claimed(w))
    ensures !truncated && w.flag == 0 ==> AllUnlabelled(mesh, s, renderPass, start, Claimed(w))
    ensures truncated ==> |Claimed(w)| > OPEN_MAX && w.peak == OPEN_MAX
  {
    RefInStore(mesh, s, start);
    w := Walk(SetFlags(s, start, UNASSIGNED), 0, FLOODED, Minted, [start], [start], [], [start], 1);
    truncated := false;
    while |w.open| > 0
      invariant WalkInv(mesh, s, renderPass, start, w)
      invariant !truncated ==> forall r :: r in Claimed(w) ==> r in w.open || Closed(mesh, s, renderPass, Claimed(w), r)
      invariant !truncated && w.flag == 0 ==>
        forall r :: r in Claimed(w) ==> r in w.open || Unlabelled(mesh, s, renderPass, start, r)
      invariant truncated ==> |Claimed(w)| > OPEN_MAX && w.peak == OPEN_MAX
      decreases Measure(s, w)
    {
      MeasureBounded(mesh, s, renderPass, start, w);
      var ref := w.open[|w.open| - 1];
      PopKeepsInv(mesh, s, renderPass, start, w);
      var popped := Pop(w);
      var w', cut := ExpandPolygon(mesh, s, renderPass, start, popped, ref);
      if !truncated && !cut {
        assert Closed(mesh, s, renderPass, Claimed(w'), ref);
        ClosureStep(mesh, s, renderPass, Claimed(w), Claimed(w'), popped.open, w'.open, ref);
        if w'.flag == 0 {
          UnlabelledStep(mesh, s, renderPass, start, Claimed(w), Claimed(w'), popped.open, w'.open, ref);
        }
      }
      if truncated {
        SubsetCard(Claimed(w), Claimed(w'));
      }
      truncated := truncated || cut;
      w := w';
    }
  }

  /**
   * Flood from `start` during render pass `renderPass`. `pending` lists the
   * polygons claimed before the label was known (starting with `start`),
   * `direct` those claimed after; `truncated` reports that a push was refused
   * because the open stack was full, and `peak` is the deepest the stack got.
   * A refused push takes more than `OPEN_MAX` claimed polygons.
   */
  method FloodNavmesh(mesh: Mesh, s: Store, renderPass: bv8, start: PolyRef)
    returns (s': Store, island: bv16, pending: seq<PolyRef>, direct: seq<PolyRef>, parents: seq<PolyRef>,
             origin: Origin, truncated: bool, peak: nat)
    requires Fits(mesh, s) && IsRef(mesh, start)
    ensures Fits(mesh, s')
    ensures s'.ntiles == s.ntiles && s'.passes == s.passes && s'.words.Keys == s.words.Keys
    ensures 0 < island <= LABEL_MASK
    ensures |pending| > 0 && pending[0] == start
    ensures Distinct(pending) && Distinct(direct) && forall r :: r in pending ==> r !in direct
    ensures forall r :: r in pending + direct ==> IsRef(mesh, r) && s'.words[r] == FloodedWord(island)
    ensures forall r :: r in s.words && r !in pending + direct ==> s'.words[r] == s.words[r]
    ensures forall r :: r in pending + direct && r != start ==> Eligible(s, renderPass, r)
    ensures origin.Adopted? ==>
      && IsRef(mesh, origin.from) && StableClean(s, renderPass, origin.from)
      && island == Label(s.words[origin.from]) && s'.nextFlag == s.nextFlag
      && origin.via in pending + direct && Link(origin.from) in Links(mesh, origin.via)
    ensures origin.Minted? ==>
      && direct == []
      && s'.nextFlag == LabelCursor.Next(s.nextFlag) && island == s'.nextFlag as bv16
    ensures origin.Minted? && !truncated ==> AllUnlabelled(mesh, s, renderPass, start, Members(pending + direct))
    ensures Tree(mesh, pending + direct, parents)
    ensures 1 <= peak <= OPEN_MAX
    ensures truncated ==> |Members(pending + direct)| > OPEN_MAX && peak == OPEN_MAX
    ensures !truncated ==> AllClosed(mesh, s, renderPass, Members(pending + direct))
  {
    var w;
    w, truncated := Traverse(mesh, s, renderPass, start);
    s', island := Conclude(mesh, s, renderPass, start, w);
    assert Claimed(w) == Members(w.pending + w.direct);
    pending, direct, parents, origin, peak := w.pending, w.direct, w.parent, w.origin, w.peak;
  }

  /**
   * Decide the label of a finished walk: keep the adopted one, or mint a
   * fresh one from the cursor; then stamp it on every pending polygon.
   */
  method Conclude(mesh: Mesh, s: Store, renderPass: bv8, start: PolyRef, w: Walk) returns (s': Store, island: bv16)
    requires WalkInv(mesh, s, renderPass, start, w)
    ensures Fits(mesh, s') && s'.ntiles == s.ntiles && s'.passes == s.passes && s'.words.Keys == s.words.Keys
    ensures 0 < island <= LABEL_MASK
    ensures w.flag != 0 ==> island == w.flag && s'.nextFlag == s.nextFlag
    ensures w.flag == 0 ==> s'.nextFlag == LabelCursor.Next(s.nextFlag) && island == s'.nextFlag as bv16
    ensures forall r :: r in w.pending + w.direct ==> IsRef(mesh, r) && s'.words[r] == FloodedWord(island)
    ensures forall r :: r in s.words && r !in w.pending + w.direct ==> s'.words[r] == s.words[r]
  {
    var st := w.st;
    island := w.flag;
    if island == 0 {
      // nothing stable was met: mint a fresh label from the cursor
      st := st.(nextFlag := LabelCursor.Next(st.nextFlag));
      island := st.nextFlag as bv16;
    }
    assert w.flag != 0 ==> w.stamp == FloodedWord(island);
    s' := SettlePending(st, w.pending, island);
    forall r | r in w.pending + w.direct
      ensures IsRef(mesh, r) && s'.words[r] == FloodedWord(island)
    {
      if r in w.pending {
        assert s'.words[r] == FloodedWord(island);
      } else {
        assert r in w.direct && w.flag != 0 && st.words[r] == w.stamp;
        assert s'.words[r] == st.words[r];
      }
    }
    forall r | r in s.words && r !in w.pending + w.direct
      ensures s'.words[r] == s.words[r]
    {
      assert r !in w.pending && r !in w.direct;
    }
  }
}

=== FILE: navmesh.dfy ===
/**
 * The navigation mesh as the island indexer sees it: tiles of polygons, each
 * polygon with a list of links to neighbouring polygons. Decoding a polygon
 * reference into its tile and polygon index is the projection `PolyRef.tile`
 * / `PolyRef.poly`.
 */
module NavMesh {
  import opened IslandConsts

  /** A polygon reference, decoded into its tile index and its index within the tile. */
  datatype PolyRef = PolyRef(tile: nat, poly: nat)

  /** One entry of a polygon's link list; a null link carries no neighbour. */
  datatype Link = NullLink | Link(to: PolyRef)

  /** A tile slot of the mesh; `polyLinks[j]` is the link list of polygon `j`. */
  datatype Tile = Tile(hasHeader: bool, polyLinks: seq<seq<Link>>)

  /** The mesh: `|tiles|` is its maximum tile count. */
  datatype Mesh = Mesh(tiles: seq<Tile>)

  predicate IsRef(mesh: Mesh, r: PolyRef) {
    r.tile < |mesh.tiles| && r.poly < |mesh.tiles[r.tile].polyLinks|
  }

  function Links(mesh: Mesh, r: PolyRef): (links: seq<Link>)
    requires IsRef(mesh, r)
  {
    mesh.tiles[r.tile].polyLinks[r.poly]
  }

  /** The polygons of tile `t`, in polygon order. */
  function TilePolys(mesh: Mesh, t: nat): (polys: seq<PolyRef>)
    requires t < |mesh.tiles|
    ensures |polys| == |mesh.tiles[t].polyLinks|
    ensures forall j :: 0 <= j < |polys| ==> polys[j] == PolyRef(t, j)
    ensures forall r :: r in polys <==> IsRef(mesh, r) && r.tile == t
  {
    seq(|mesh.tiles[t].polyLinks|, j requires 0 <= j => PolyRef(t, j))
  }

  /**
   * What the provider guarantees: a tile slot without a header holds no
   * polygons, no tile holds more polygons than the per-tile capacity, and
   * every non-null link names a polygon of the mesh.
   */
  ghost predicate WellFormed(mesh: Mesh) {
    && (forall t :: 0 <= t < |mesh.tiles| ==>
          |mesh.tiles[t].polyLinks| <= MAX_POLY_PER_TILE
          && (!mesh.tiles[t].hasHeader ==> mesh.tiles[t].polyLinks == []))
    && (forall r, i :: IsRef(mesh, r) && 0 <= i < |Links(mesh, r)| && Links(mesh, r)[i].Link? ==>
          IsRef(mesh, Links(mesh, r)[i].to))
  }
}
